=== FILE: README.md ===
# BotController command dispatch, modelled in Dafny

BotController is a small Python framework for chat bots. A bot keeps a list of registered
commands. Each command has a name, aliases, a handler and the handler's declared parameter
types. Incoming messages are handled in three steps:

- **Recognise**: a message is a command message when its text starts with one of the
  configured prefixes.
- **Extract**: cut the prefix, find the command name, and split the rest into argument tokens.
- **Execute**: find the command, bundle surplus tokens, coerce each token to its declared type
  (`int`, a role or user mention, or any other type), call the handler, and report.

An `EventManager` keeps five lists of subscribers (`CommandNotFound`, `ExceptionDuringCommand`,
`ArgumentCastingError`, `CommandReceived`, `InvalidPermissions`). It calls them in order when an
event is triggered. A `RestrictedManager` wraps handlers in role, user, channel, server and
permission checks. A denied check fires `InvalidPermissions` instead of calling the handler.

The model's modules follow the repository:

- `Runtime`: messages, values, errors, calls into opaque Python callables, and traces.
- `Strings`: `startswith`, `strip()`, `split(" ")`, `" ".join`.
- `Enums`: `handler/enums.py`.
- `Events`: `handler/events.py`.
- `Parsing`: `handler/parsing.py`, plus the decimal text `int()` reads.
- `Restricted`: `botcontroller/restricted.py`.
- `Commands`: `botcontroller/command.py`.
- `Utils`: `handler/utils.py`.

Python callables (handlers, subscribers, annotation types) are opaque identities. What calling
one does is given by a `Behaviour` parameter: a function from a call to "returned a value" or
"raised an error". Every operation that calls out returns its `Effect`, which has two parts:

- the trace: the calls it made and the events it fired, in order;
- its outcome: returned, or raised.

This lets the contracts state ordering and "called at most once". Each imperative operation is a
method whose `ensures` equates its trace and outcome with a specification function. The
properties are proved about those functions.

Some behaviours of the code are easy to miss when reading it:

- Triggering a known event with no subscribers does nothing and raises nothing
  (`Events.TriggerFiresOnce`).
- A command with no declared parameter types still receives the words after its name, as
  strings (`Utils.ZeroParameterCommandGetsWords`). For `"!hello there"` the handler is called
  with `"there"`.
- `execute_command` fires nothing when no command matches (`Utils.Execute`). No code path fires
  `CommandNotFound`, although the repository's example bot examples/advanced.py subscribes a
  handler to it at line 13.
- Extraction does not check for a prefix first: with no matching prefix the whole unstripped
  content is searched for a command name (`Utils.NonCommandMessageKeepsContent`).
- `add_command`'s `aliases` defaults to `None`, on which `__post_init__` raises
  `AttributeError`; `Commands.Registry.AddCommand` models that outcome.

## Model

| member | source | states |
|---|---|---|
| Strings.Strip | handler/utils.py:21 | the stripped text is a slice of the input with only whitespace before and after it, and it neither starts nor ends with a whitespace character |
| Strings.StripUnpadded | handler/utils.py:32 | text without surrounding whitespace is unchanged by strip |
| Strings.Split | handler/utils.py:35 | splitting at single spaces gives at least one piece and no piece contains a space |
| Strings.JoinSplit | handler/utils.py:35 | joining the pieces of a split with single spaces (`Strings.Join`, the model of `" ".join`) gives the original text back |
| Strings.SplitJoin | handler/utils.py:35 | splitting a join of space-free pieces gives the pieces back |
| Strings.JoinJoinedTail | handler/utils.py:53-55 | joining a prefix with the already joined rest equals joining everything |
| Enums.Find | handler/enums.py:21-24 | the search returns a member whose value is the argument, or the unknown-name `ValueError` when no member in the list has that value |
| Enums.GetEvent | handler/enums.py:20-24 | a returned member has the looked-up value; otherwise the error is `ValueError("Unknown event name '…'")` |
| Enums.ToString | handler/enums.py:9-10 | `str(e)` is text that `get_event` maps back to `e` |
| Enums.Repr | handler/enums.py:12-13 | `repr(e)` is the same text as `str(e)` |
| Enums.GetEventRoundTrip | handler/enums.py:20-23 | every member is found again from its own value |
| Enums.HasValue | handler/enums.py:16-24 | `has_value(v)` holds exactly when `get_event(v)` does not raise |
| Enums.FourValues | handler/enums.py:3-7 | the member values are exactly the four event names; `"InvalidPermissions"` is not one of them |
| Events.TriggerErrorIsValueError | handler/events.py:54-65 | `Events.TriggerError` is the exception chosen by the typed branches; for a table holding the five known keys, an unknown name always gets `ValueError`, so the typed branches are unreachable |
| Events.Fire | handler/events.py:52-53 | subscribers are called in list order with the same arguments; the calls made are a prefix of the list; a raise stops the loop and is the outcome; a full run returns `None` |
| Events.TriggerAsWritten | handler/events.py:47-48 | as written, triggering by a string name behaves as the corrected trigger |
| Events.MemberTriggerFailsAsWritten | handler/events.py:47 | as written, triggering by an `Event` member raises `TypeError` and fires nothing, although the corrected trigger fires the event |
| Events.MemberTriggerIsNamedTrigger | handler/events.py:48-53 | with the member normalised first, triggering by a member equals triggering by its value and fires exactly that event |
| Events.TriggerFiresOnce | handler/events.py:49-53 | a known event is fired exactly once, as the first step; every later step is a call to one of its subscribers with the trigger's arguments; with no subscribers nothing else happens and nothing is raised |
| Events.RemoveFirst | handler/events.py:77 | `list.remove` deletes exactly the element at the first index holding `f` |
| Events.RemoveFirstMultiset | handler/events.py:77 | removal takes one `f` out of the list and keeps every other element |
| Events.EventManager.constructor | handler/events.py:15-22 | a fresh manager holds exactly the five known names, each with an empty list |
| Events.EventManager.AddEvent | handler/events.py:32-36 | a known name (a member normalised to its value) gets `f` appended and no other list changes; an unknown name raises `ValueError` and changes nothing; a table holding exactly the five known keys still does |
| Events.Key | handler/events.py:48 | a string name is its own key; a member is normalised to its value, which is a known key that `get_event` maps back to the member |
| Events.Trigger | handler/events.py:48-65 | an unknown key fires nothing and raises; a known key is fired first, followed by at most one call per subscriber; a completed trigger returns `None` |
| Events.EventManager.TriggerEvent | handler/events.py:47-65 | the loop's trace and outcome equal `Events.TriggerAsWritten`: a member raises `TypeError` at the debug concatenation, a string name behaves as `Events.Trigger` |
| Events.EventManager.RemoveEvent | handler/events.py:75-79 | the first `f` is removed from a known name's list and nothing else changes; an absent `f` or an unknown name raises `ValueError` and changes nothing; a table holding exactly the five known keys still does |
| Events.AddThenRemove | handler/events.py:33-77 | subscribing a new function and then unsubscribing it restores the table |
| Parsing.MatchAfter | handler/parsing.py:25 | a match captures a non-empty run of decimal digits, and the text is the lead, those digits, `>` and whatever follows |
| Parsing.MatchUser | handler/parsing.py:6 | a match captures digits, and the text is `<@!` or `<@`, the digits, `>` and whatever follows |
| Parsing.MatchRole | handler/parsing.py:7 | a match captures digits, and the text is `<@&`, the digits, `>` and whatever follows |
| Parsing.ResolveRole | handler/parsing.py:25-30 | the result is the input unchanged, or a non-negative int taken from a string that starts with `<@&` |
| Parsing.ResolveUser | handler/parsing.py:43-48 | the result is the input unchanged, or a non-negative int taken from a string that starts with `<@` |
| Parsing.ResolvedRoleIsMention | handler/parsing.py:25-30 | a value `resolve_role` changes is a string made of `<@&`, digits, `>` and any text, and the result is the digits' value |
| Parsing.ResolvedUserIsMention | handler/parsing.py:43-48 | a value `resolve_user` changes is a string made of `<@!` or `<@`, digits, `>` and any text, and the result is the digits' value |
| Parsing.RoleMentionResolves | handler/parsing.py:25-26 | `<@&digits>` followed by any text resolves to the digits' value |
| Parsing.UserMentionResolves | handler/parsing.py:43-44 | `<@digits>` and `<@!digits>` followed by any text resolve to the digits' value |
| Parsing.MentionRoundTrip | handler/parsing.py:6-7 | for every `n >= 0` the mentions written from `str(n)` resolve back to `n` |
| Parsing.RoleMentionIsNotUser | handler/parsing.py:6 | `resolve_user` leaves a role mention unchanged |
| Parsing.UserMentionIsNotRole | handler/parsing.py:7 | `resolve_role` leaves a user mention unchanged |
| Parsing.BareNumberUnchanged | handler/parsing.py:27-30 | a bare number is returned unchanged by both resolvers, as a string |
| Parsing.ParseInt | handler/utils.py:66 | `int(token)` succeeds only on a token with something left after trimming the whitespace `int()` skips, which is every `str.isspace` character except the separators U+001C to U+001F |
| Parsing.SeparatorNotSkipped | handler/utils.py:66 | digits behind a U+001F separator are what `strip()` leaves, yet `int()` rejects them |
| Parsing.ParseIntRoundTrip | handler/utils.py:66 | `int(str(i)) == i` for every integer |
| Parsing.ParseIntRejects | handler/utils.py:66-67 | a token that is empty or blank, or only a sign once stripped, makes `int()` fail |
| Parsing.ParamTypes | handler/parsing.py:61-71 | one type per parameter after the first, in order: its annotation if present, otherwise `str` |
| Restricted.FirstMissing | botcontroller/restricted.py:110-113 | the index of the first listed permission not held; all earlier ones are held |
| Restricted.Denial | botcontroller/restricted.py:21-113 | a check denies exactly when it does not admit the message (`Restricted.Admits`: the role is held, the id is listed, or every permission is held); a denial carries the check's tag, the message and the offending item: the role, the id list, or the first missing permission |
| Restricted.Invoke | botcontroller/restricted.py:20-24 | an admitting wrapper makes exactly the inner handler's calls and raises exactly when it does, with its error; a denying wrapper only triggers `InvalidPermissions` with the denial and raises exactly when that trigger does, with its error; a wrapper that completes returns `None` |
| Restricted.Run | botcontroller/restricted.py:19-115 | running a wrapped handler gives the trace and outcome of the specification `Restricted.Invoke` |
| Restricted.AdmittedCallsBaseOnce | botcontroller/restricted.py:21-22 | when every wrapper admits the message, the base handler is called exactly once, with the message and the arguments unchanged |
| Restricted.DeniedNeverCallsBase | botcontroller/restricted.py:110-113 | when some wrapper denies, exactly one `InvalidPermissions` event is fired, first, carrying the denial of the outermost denying check, and the base handler is never called with the message and arguments |
| Restricted.OuterDenialIgnoresInner | botcontroller/restricted.py:21-24 | an outer wrapper that denies decides the result whatever it wraps |
| Restricted.RestrictedManager.constructor | botcontroller/restricted.py:6-7 | the manager keeps the event manager it is given |
| Restricted.RestrictedManager.Wrap | botcontroller/restricted.py:19-25 | the wrapper reports to this manager's events and wraps the same base handler as `func` |
| Restricted.WrapRunsOrReports | botcontroller/restricted.py:19-25 | the wrapper a decorator returns (`Restricted.RestrictedManager.Wrap`, the `decorator(func)` closure shared by all five decorators) runs the wrapped handler unchanged when the check admits the message, otherwise only triggers `InvalidPermissions` on the manager's events with the denial and raises exactly what that trigger raises, and returns `None` when it completes |
| Restricted.RestrictedManager.Role | botcontroller/restricted.py:9-26 | the check admits exactly the messages whose author holds the role |
| Restricted.RestrictedManager.User | botcontroller/restricted.py:38-48 | all-int ids give a check that admits exactly the listed authors; any non-int raises the stated `TypeError` |
| Restricted.RestrictedManager.Channel | botcontroller/restricted.py:60-70 | all-int ids give a check that admits exactly the listed channels; any non-int raises the stated `TypeError` |
| Restricted.RestrictedManager.Server | botcontroller/restricted.py:82-92 | all-int ids give a check that admits exactly the listed servers; any non-int raises the stated `TypeError` |
| Restricted.RestrictedManager.Permissions | botcontroller/restricted.py:104-118 | a list of permissions gives a check with the same permissions in the same order; any other element raises the stated `TypeError` |
| Commands.Dedup | botcontroller/command.py:25 | the result has no duplicates and holds exactly the input's elements |
| Commands.Command.constructor | botcontroller/command.py:23-25 | the name is among the aliases; the aliases have no duplicates and, as a set, are the given aliases plus the name; every other field is kept |
| Commands.Command.Call | botcontroller/command.py:27-28 | calling a command runs its handler with the arguments unchanged; a plain handler is called once and its outcome is returned |
| Commands.Registry.AddCommand | botcontroller/command.py:30-42 | with a list of aliases, exactly one new command is appended at the end, earlier entries unchanged, its types taken from the signature; with the default `None` it raises `AttributeError` and appends nothing |
| Utils.FirstStart | handler/utils.py:26-29 | the index of the first candidate the content starts with (`Strings.StartsWith`, the model of `startswith`); no earlier candidate matches |
| Utils.IsCommandMessage | handler/utils.py:7-8 | a message is a command message exactly when some prefix, and so a first one, matches its content |
| Utils.Opener | handler/utils.py:26-30 | the name is the first of the command's name and aliases that starts the content, provided it is non-empty; otherwise there is none |
| Utils.FirstOpened | handler/utils.py:25-33 | the first command in list order that yields a name; no earlier command does |
| Utils.AfterPrefix | handler/utils.py:18-22 | with no prefix matching, the content is kept as it is; otherwise the rest after the first matching prefix is at most as long as what follows that prefix and neither starts nor ends with whitespace |
| Utils.AfterPrefixStripsRest | handler/utils.py:19-22 | when `prefixes[k]` is the first prefix the content starts with, the result is `strip()` of the text after that prefix, so neither a later, longer matching prefix nor anything beyond surrounding whitespace is cut |
| Utils.CutPrefix | handler/utils.py:18-22 | the prefix loop, which cuts only the first matching prefix and strips the remainder, returns `Utils.AfterPrefix` |
| Utils.CutName | handler/utils.py:24-33 | the name is taken from the first command that yields one and the stripped rest follows it; with none, no name and the content unchanged |
| Utils.Tokens | handler/utils.py:35 | empty text gives no tokens; otherwise the tokens contain no space and join back to the text |
| Utils.Extract | handler/utils.py:10-36 | a name is found exactly when some command yields one for the text after the prefix; it is non-empty, starts that text and is a command's name or alias; with none, the arguments are that text's split; no argument contains a space |
| Utils.ExtractCommandInfo | handler/utils.py:10-36 | the extracted name and arguments equal the extraction specification `Utils.Extract` |
| Utils.TokensOfSpaced | handler/utils.py:32-35 | the argument text after a name gives back its words; an empty remainder gives no arguments |
| Utils.ExtractRoundTrip | handler/utils.py:18-36 | a message made of the first prefix, the first command's name and space-separated words is taken apart into that name and those words |
| Utils.NonCommandMessageKeepsContent | handler/utils.py:18-22 | with no prefix matching, the unstripped content is searched, and no name means its plain split |
| Utils.Bundle | handler/utils.py:52-55 | bundling never adds tokens, leaves exactly `n` tokens when there were more than `n >= 1`, and joins back to the same text |
| Utils.BundleShape | handler/utils.py:52-55 | with `n` types and more tokens, the first `n - 1` tokens are unchanged and the rest are joined into the last; with `n = 0` or few tokens nothing changes |
| Utils.OneParameterTakesRest | handler/utils.py:52-55 | a one-parameter command receives everything after its name as one argument |
| Utils.CastToken | handler/utils.py:59-67 | a `str` token is kept; an `int` token is rejected exactly when `int()` fails and otherwise gives its value; role and user tokens give the resolver's result; any other type converts exactly when calling it returns, is rejected exactly on a `ValueError`, and lets every other error escape |
| Utils.CastAll | handler/utils.py:57-71 | all values are produced exactly when every token converts, each by its declared type (`Utils.TypeAt`: the type at its position, or `str` past the declared ones); otherwise the result reports the first failing token, or the error that escapes from it |
| Utils.NoTypesPassesStrings | handler/utils.py:50-59 | with no declared types every token is passed on as the same string |
| Utils.UndeclaredTokensStayStrings | handler/utils.py:59 | tokens beyond the declared types are passed on as strings |
| Utils.CastStopsAtFirstFailure | handler/utils.py:67-71 | after a failing token, later tokens make no difference to the result |
| Utils.IntCast | handler/utils.py:59-66 | for both slots of the declared types `[int, int]`, a token converts exactly when `int()` accepts it, to that integer, and is rejected exactly when `int()` fails |
| Utils.AddExample | handler/utils.py:57-66 | `!add` with two integer parameters: two tokens `int()` accepts give their integers in order; a second token `int()` rejects is the token reported |
| Utils.FindCommand | handler/utils.py:48-49 | the first command whose name or alias equals the requested name (`Utils.Selects`); no earlier command matches |
| Utils.Execute | handler/utils.py:48-80 | when no command matches, nothing is called, nothing is fired and `None` is returned |
| Utils.CastFailureReportsToken | handler/utils.py:67-71 | a failed cast fires `ArgumentCastingError` once with the message, the command and the offending token; the handler is never reached |
| Utils.HandlerErrorReported | handler/utils.py:73-79 | after a handler raises, exactly one more event fires: `ExceptionDuringCommand` with that error |
| Utils.HandlerSuccessReceived | handler/utils.py:73-75 | after a handler returns, `CommandReceived` fires and, if its subscribers return, the command ends with `None` |
| Utils.ReceivedErrorReported | handler/utils.py:75-79 | a `CommandReceived` subscriber's error is followed by exactly one `ExceptionDuringCommand` event carrying it |
| Utils.Report | handler/utils.py:76-79 | the report keeps the earlier steps unchanged; when `ExceptionDuringCommand` is known it is fired right after them with the message, the command and the error; a completed report returns `None` |
| Utils.Finish | handler/utils.py:73-79 | the handler's own steps come first and are kept unchanged, whatever follows them; a command that completes returns `None` |
| Utils.RunCommand | handler/utils.py:50-80 | an error escaping coercion leaves before anything is called or fired; a run that completes returns `None` |
| Utils.FinishTail | handler/utils.py:73-79 | after the handler's own steps, only `CommandReceived` and `ExceptionDuringCommand` steps follow |
| Utils.PlainHandlerCalledFirst | handler/utils.py:74 | the handler is called first, with the message and the coerced values in order; every later step belongs to an event, so the handler runs once |
| Utils.ZeroParameterCommandGetsWords | handler/utils.py:50-74 | a command with no declared types is called with every word as a string |
| Utils.Coerce | handler/utils.py:57-71 | the coercion loop returns the specification `Utils.CastAll` |
| Utils.RunFound | handler/utils.py:50-80 | the body for a found command gives the trace and outcome of `Utils.RunCommand` |
| Utils.FinishRun | handler/utils.py:73-79 | what follows the handler call gives the trace and outcome of `Utils.Finish`, whose properties are the lemmas above |
| Utils.ExecuteCommand | handler/utils.py:39-80 | the dispatch loop gives the trace and outcome of the specification `Utils.Execute` |

## Findings

| source | as written | input that shows it | evidently intended | confidence | as-written member | corrected member |
|---|---|---|---|---|---|---|
| handler/events.py:47 | the debug line concatenates `"hey"` with the event name before the name is normalised, and `str + Event` raises `TypeError` | `trigger_event(Event.CommandReceived)` on a fresh manager | an `Event` member triggers the event its value names, as `add_event` and `remove_event` accept members | high; not executed | Events.MemberTriggerFailsAsWritten | Events.MemberTriggerIsNamedTrigger |

## Left out

- Asynchronous scheduling: every `await` is an ordinary sequential call.
- The debug `print` calls in `trigger_event` are output only and are left out. The exception is the concatenation that raises, listed under Findings.
- Discord client plumbing is left out: message delivery, `channel.send`, the `client.run` bootstrap.
- Other left-out files: handler/main.py (a superseded prototype), test.py, test2.py and handler/__init__.py (re-exports).
- handler/custom_exceptions.py and handler/exceptions.py hold only empty exception classes; their names are the `Error` constructors.
- botcontroller/parsing.py and botcontroller/enums.py are not part of this model. `Command` uses the `param_types` of handler/parsing.py. `DiscordPermissions` members are opaque `Permission` names.
- Handlers, subscribers and annotation types are opaque; their effect is the `Behaviour` and `Converter` parameters, which are pure. A subscriber cannot change the event table or the command list during a dispatch.
- A handler called with the wrong number of arguments raises `TypeError` in Python. That is part of the `Behaviour` the handler is given.
- `inspect.signature` is replaced by the list of the parameters' optional annotations. That list is a separate argument of `add_command` and is not derived from the handler. A restricted wrapper's real signature is `(message, *args)`, for which `param_types` gives `[str]`, so all of a restricted command's tokens reach it bundled into one string.
- botcontroller/restricted.py imports `EventManager` from botcontroller/events.py, which is not part of this model. The `EventManager` class of handler/events.py stands in for it.
- `getattr(author_permissions, p.value)` is replaced by membership in the author's set of permissions.
- Utils.CastToken: `float` and every other annotation go through the opaque `Converter`. The calls a conversion makes are not recorded in the trace.
- Parsing.ParseInt: accepts ASCII digits only. Python's `int()` also accepts other Unicode decimal digits.
- Parsing.ResolveRole: `\d` matches ASCII digits only here. Python's regex also matches other Unicode decimal digits.
- Parsing.ResolveUser: `\d` matches ASCII digits only, as for `ResolveRole`.
- Commands.Dedup: keeps the last occurrence of each alias. Python's `list(set(...))` order is hash order, so only set equality and no duplicates are claimed.
- Commands.Command.constructor: the caller's alias list is not mutated. `__post_init__` appends the name to the list object the caller passed in; the aliasing is not modelled.
- Utils.Finish: every modelled `Error` is an `Exception`. A `BaseException` that is not one (`SystemExit` from `sys.exit()`, `KeyboardInterrupt`, `asyncio.CancelledError`) passes the `except Exception` at handler/utils.py:76 and escapes `execute_command` without firing `ExceptionDuringCommand`; the model has no such error, so `Utils.Report`, `Utils.HandlerErrorReported` and `Utils.ReceivedErrorReported` report every error.
- Utils.PlainHandlerCalledFirst: "runs once" holds when the handler is not itself subscribed to `CommandReceived` or `ExceptionDuringCommand`. The lemma states that every later step belongs to those events.

=== FILE: command.dfy ===
/** `Command` records and `add_command`, which appends one to the caller's command list. */
module Commands {
  import opened Runtime
  import opened Parsing
  import opened Restricted

  predicate NoDuplicates(s: seq<string>)
  {
    forall i, j :: 0 <= i < j < |s| ==> s[i] != s[j]
  }

  /** `list(set(s))`: the distinct elements of `s`, each once. Python's order is the set's
      iteration order; this keeps the last occurrence of each element. */
  function Dedup(s: seq<string>): (r: seq<string>)
    ensures NoDuplicates(r)
    ensures forall x :: x in r <==> x in s
    ensures |r| <= |s|
  {
    if s == [] then []
    else
      var rest := Dedup(s[1..]);
      if s[0] in rest then rest else [s[0]] + rest
  }

  class Command {
    const name: string
    const description: string
    const handler: Handler
    const aliases: seq<string>
    const paramTypes: seq<TypeTag>

    /** `Command(...)` with `__post_init__`: the name is added to the aliases and duplicates are
        collapsed; every other field is kept as given. */
    constructor (name: string, description: string, handler: Handler, aliases: seq<string>, paramTypes: seq<TypeTag>)
      ensures this.name == name && this.description == description
      ensures this.handler == handler && this.paramTypes == paramTypes
      ensures name in this.aliases && NoDuplicates(this.aliases)
      ensures forall a :: a in this.aliases <==> a in aliases || a == name
    {
      this.name := name;
      this.description := description;
      this.handler := handler;
      this.paramTypes := paramTypes;
      this.aliases := Dedup(aliases + [name]);
    }

    /** `cmd(*args)`: forwards the message and arguments to the handler, unchanged, and returns
        what it returns. */
    method Call(m: Message, args: seq<Value>, behave: Behaviour) returns (trace: seq<Step>, out: Outcome)
      ensures Effect(trace, out) == Invoke(handler, m, args, behave)
      ensures handler.Plain? ==>
        trace == [Invoked(Runtime.Call(handler.fn, [MessageValue(m)] + args))]
        && out == behave(Runtime.Call(handler.fn, [MessageValue(m)] + args))
    {
      trace, out := Run(handler, m, args, behave);
    }
  }

  /** The caller's list of registered commands. */
  class Registry {
    var commands: seq<Command>

    constructor ()
      ensures commands == []
    {
      commands := [];
    }

    /** `add_command(commands, name, description, function, aliases)`. The parameter types come
        from the handler's signature, given here as its parameters' annotations. `aliases`
        defaults to `None`, on which `__post_init__` fails with `AttributeError` and nothing is
        appended. */
    method AddCommand(name: string, description: string, handler: Handler,
                      annotations: seq<Option<TypeTag>>, aliases: Option<seq<string>>) returns (out: Outcome)
      modifies this
      ensures aliases.None? ==>
        out == Raised(AttributeError("'NoneType' object has no attribute 'append'")) && commands == old(commands)
      ensures aliases.Some? ==> (out == Returned(NoneValue)
        && |commands| == |old(commands)| + 1
        && commands[..|old(commands)|] == old(commands)
        && fresh(commands[|old(commands)|]))
      ensures aliases.Some? ==>
        var c := commands[|old(commands)|];
        c.name == name && c.description == description && c.handler == handler
        && DeclaresTypes(annotations, c.paramTypes)
        && name in c.aliases && NoDuplicates(c.aliases)
        && forall a :: a in c.aliases <==> a in aliases.value || a == name
    {
      var types := ParamTypes(annotations);
      if aliases.None? {
        out := Raised(AttributeError("'NoneType' object has no attribute 'append'"));
        return;
      }
      var c := new Command(name, description, handler, aliases.value, types);
      commands := commands + [c];
      out := Returned(NoneValue);
    }
  }
}

=== FILE: enums.dfy ===
/** The `Event` enumeration: the four events a subscriber may name by member instead of by string. */
module Enums {
  import opened Runtime

  datatype Event = CommandNotFound | ArgumentCastingError | ExceptionDuringCommand | CommandReceived

  /** The member's `.value`. */
  function Value(e: Event): string
  {
    match e
    case CommandNotFound => "CommandNotFound"
    case ArgumentCastingError => "ArgumentCastingError"
    case ExceptionDuringCommand => "ExceptionDuringCommand"
    case CommandReceived => "CommandReceived"
  }

  /** The members in declaration order, the order in which iterating the class visits them. */
  const Members: seq<Event> := [CommandNotFound, ArgumentCastingError, ExceptionDuringCommand, CommandReceived]

  /** The error `get_event` raises for a value no member has. */
  function UnknownEvent(v: string): Error
  {
    ValueError("Unknown event name '" + v + "'")
  }

  /** The search loop of `get_event` over `items`. */
  function Find(items: seq<Event>, v: string): (r: Result<Event>)
    ensures r.Ok? ==> r.value in items && Value(r.value) == v
    ensures r.Err? ==> r.error == UnknownEvent(v) && forall i :: 0 <= i < |items| ==> Value(items[i]) != v
  {
    if items == [] then Err(UnknownEvent(v))
    else if Value(items[0]) == v then Ok(items[0])
    else Find(items[1..], v)
  }

  /** `Event.get_event(v)`: the member whose value is `v`, or `ValueError`. */
  function GetEvent(v: string): (r: Result<Event>)
    ensures r.Ok? ==> Value(r.value) == v
    ensures r.Err? ==> r.error == UnknownEvent(v)
  {
    Find(Members, v)
  }

  /** `Event.has_value(v)`: some member has value `v`, which is exactly when `get_event(v)` does
      not raise. */
  function HasValue(v: string): (b: bool)
    ensures b <==> GetEvent(v).Ok?
  {
    exists i | 0 <= i < |Members| :: Value(Members[i]) == v
  }

  /** `str(e)`: the member's value, which `get_event` maps back to the member. */
  function ToString(e: Event): (s: string)
    ensures GetEvent(s) == Ok(e)
  {
    GetEventRoundTrip(e);
    Value(e)
  }

  /** `repr(e)`: the same text as `str(e)`. */
  function Repr(e: Event): (s: string)
    ensures s == ToString(e)
  {
    Value(e)
  }

  /** Every member is found by its own value: values are distinct and every member is listed. */
  lemma GetEventRoundTrip(e: Event)
    ensures GetEvent(Value(e)) == Ok(e)
  {
    assert Members[0] == CommandNotFound && Members[1] == ArgumentCastingError;
    assert Members[2] == ExceptionDuringCommand && Members[3] == CommandReceived;
  }

  /** The enumeration has exactly four values, and `"InvalidPermissions"` is not among them. */
  lemma FourValues()
    ensures (set e: Event | true :: Value(e)) ==
      {"CommandNotFound", "ArgumentCastingError", "ExceptionDuringCommand", "CommandReceived"}
    ensures |set e: Event | true :: Value(e)| == 4
    ensures !HasValue("InvalidPermissions") && GetEvent("InvalidPermissions").Err?
  {
    var vs := set e: Event | true :: Value(e);
    assert Value(CommandNotFound) in vs && Value(ArgumentCastingError) in vs;
    assert Value(ExceptionDuringCommand) in vs && Value(CommandReceived) in vs;
  }
}

=== FILE: events.dfy ===
/** `EventManager`: a fixed table from the five event names to ordered subscriber lists. */
module Events {
  import opened Runtime
  import Enums

  /** An event named by a string or by an `Event` member. */
  datatype EventName = Named(name: string) | Member(event: Enums.Event)

  /** The key an event name stands for: a member is replaced by its value. */
  function Key(n: EventName): (key: string)
    ensures n.Named? ==> key == n.name
    ensures n.Member? ==> key in Known && Enums.GetEvent(key) == Ok(n.event)
  {
    match n
    case Named(s) => s
    case Member(e) =>
      Enums.GetEventRoundTrip(e);
      Enums.Value(e)
  }

  /** The keys of a fresh manager's table, in insertion order. */
  const Known: seq<string> :=
    ["CommandNotFound", "ExceptionDuringCommand", "ArgumentCastingError", "CommandReceived", "InvalidPermissions"]

  type Table = map<string, seq<Fn>>

  function UnknownName(key: string): Error
  {
    ValueError("Unknown event name '" + key + "'")
  }

  /** The exception `trigger_event` raises for a name that is not a key. Its typed branches test
      the name as given, before normalisation. */
  function TriggerError(n: EventName): Error
  {
    match n
    case Named("CommandNotFound") => CommandNotFoundError("Command not found")
    case Named("ExceptionDuringCommand") => ExceptionDuringCommandError("Exception occurred during command execution")
    case Named("ArgumentCastingError") => ArgumentCastingFailure("Error casting argument")
    case Named("InvalidPermissions") => InvalidPermissionsError("Invalid permissions")
    case _ => UnknownName(Key(n))
  }

  /** Every name the typed branches test is a key of any table that holds the five known keys,
      so for such a table an unknown name always raises `ValueError`. */
  lemma TriggerErrorIsValueError(events: Table, n: EventName)
    requires forall k :: k in Known ==> k in events
    requires Key(n) !in events
    ensures TriggerError(n) == UnknownName(Key(n))
  {
    assert Known[0] in events && Known[1] in events && Known[2] in events && Known[4] in events;
  }

  /** Calling `subscribers` in order with `args`, stopping at the first that raises. The trace
      is the calls made: a prefix of the list, each subscriber called once. */
  function Fire(subscribers: seq<Fn>, args: seq<Value>, behave: Behaviour): (r: Effect)
    ensures |r.trace| <= |subscribers|
    ensures forall j :: 0 <= j < |r.trace| ==> r.trace[j] == Invoked(Call(subscribers[j], args))
    ensures r.outcome.Returned? ==>
      r.outcome == Returned(NoneValue) && |r.trace| == |subscribers|
      && forall j :: 0 <= j < |subscribers| ==> behave(Call(subscribers[j], args)).Returned?
    ensures r.outcome.Raised? ==>
      |r.trace| >= 1 && behave(Call(subscribers[|r.trace| - 1], args)) == r.outcome
      && forall j :: 0 <= j < |r.trace| - 1 ==> behave(Call(subscribers[j], args)).Returned?
  {
    if subscribers == [] then Effect([], Returned(NoneValue))
    else
      var c := Call(subscribers[0], args);
      var o := behave(c);
      if o.Raised? then Effect([Invoked(c)], o)
      else
        var rest := Fire(subscribers[1..], args, behave);
        assert forall j :: 1 <= j < |subscribers| ==> subscribers[1..][j - 1] == subscribers[j];
        Effect([Invoked(c)] + rest.trace, rest.outcome)
  }

  /** `trigger_event(name, *args)` against `events`. */
  function Trigger(events: Table, n: EventName, args: seq<Value>, behave: Behaviour): (r: Effect)
    ensures Key(n) !in events ==> r.trace == [] && r.outcome.Raised?
    ensures Key(n) in events ==> 1 <= |r.trace| <= 1 + |events[Key(n)]| && r.trace[0] == Fired(Key(n), args)
    ensures r.outcome.Returned? ==> r.outcome == Returned(NoneValue)
  {
    var key := Key(n);
    if key in events then
      var fired := Fire(events[key], args, behave);
      Effect([Fired(key, args)] + fired.trace, fired.outcome)
    else Effect([], Raised(TriggerError(n)))
  }

  /** `trigger_event` as written: its first statement prints `"hey" + event_name`, and for an
      `Event` member that concatenation of a `str` with an enum member raises `TypeError` before
      the name is looked up. */
  function TriggerAsWritten(events: Table, n: EventName, args: seq<Value>, behave: Behaviour): (r: Effect)
    ensures n.Named? ==> r == Trigger(events, n, args, behave)
  {
    if n.Member? then Effect([], Raised(TypeError("can only concatenate str (not \"Event\") to str")))
    else Trigger(events, n, args, behave)
  }

  /** As written, triggering by an `Event` member fails even when its value is a key, and no
      event is fired. */
  lemma MemberTriggerFailsAsWritten(events: Table, e: Enums.Event, args: seq<Value>, behave: Behaviour)
    requires Enums.Value(e) in events
    ensures TriggerAsWritten(events, Member(e), args, behave).outcome.Raised?
    ensures TriggerAsWritten(events, Member(e), args, behave).outcome.error.TypeError?
    ensures TriggerAsWritten(events, Member(e), args, behave).trace == []
    ensures Trigger(events, Member(e), args, behave).trace != []
  {
  }

  /** With the member normalised first, as `add_event` and `remove_event` do, triggering by a
      member is triggering by its value. */
  lemma MemberTriggerIsNamedTrigger(events: Table, e: Enums.Event, args: seq<Value>, behave: Behaviour)
    requires Enums.Value(e) in events
    ensures Trigger(events, Member(e), args, behave) == Trigger(events, Named(Enums.Value(e)), args, behave)
    ensures FiredEvents(Trigger(events, Member(e), args, behave).trace) == [Enums.Value(e)]
  {
    TriggerFiresOnce(events, Member(e), args, behave);
  }

  /** A trigger of a known event fires that one event, then makes only calls to its subscribers;
      with no subscribers it does nothing more and does not raise. */
  lemma TriggerFiresOnce(events: Table, n: EventName, args: seq<Value>, behave: Behaviour)
    requires Key(n) in events
    ensures var r := Trigger(events, n, args, behave);
      FiredEvents(r.trace) == [Key(n)]
      && r.trace[0] == Fired(Key(n), args)
      && (forall i :: 1 <= i < |r.trace| ==>
            r.trace[i].Invoked? && r.trace[i].call.fn in events[Key(n)] && r.trace[i].call.args == args)
      && (events[Key(n)] == [] ==> r == Effect([Fired(Key(n), args)], Returned(NoneValue)))
  {
    var fired := Fire(events[Key(n)], args, behave);
    FiredEventsOfInvocations(fired.trace);
    FiredEventsAppend([Fired(Key(n), args)], fired.trace);
  }

  /** Index of the first occurrence of `f` in `s`. */
  function IndexOf(s: seq<Fn>, f: Fn): (k: nat)
    requires f in s
    ensures k < |s| && s[k] == f && f !in s[..k]
  {
    if s[0] == f then 0 else 1 + IndexOf(s[1..], f)
  }

  /** `s.remove(f)`: `s` without its first occurrence of `f`. */
  function RemoveFirst(s: seq<Fn>, f: Fn): (r: seq<Fn>)
    requires f in s
    ensures r == s[..IndexOf(s, f)] + s[IndexOf(s, f) + 1..]
  {
    if s[0] == f then s[1..]
    else
      var rest := RemoveFirst(s[1..], f);
      var k := IndexOf(s[1..], f);
      assert s[..k + 1] == [s[0]] + s[1..][..k];
      assert s[k + 2..] == s[1..][k + 1..];
      [s[0]] + rest
  }

  /** Removing takes exactly one `f` out of the list and keeps everything else. */
  lemma RemoveFirstMultiset(s: seq<Fn>, f: Fn)
    requires f in s
    ensures multiset(RemoveFirst(s, f)) == multiset(s) - multiset{f}
    ensures |RemoveFirst(s, f)| == |s| - 1
  {
    var k := IndexOf(s, f);
    var before, after := s[..k], s[k + 1..];
    assert s == before + [f] + after;
    assert multiset(s) == multiset(before) + multiset{f} + multiset(after);
    assert RemoveFirst(s, f) == before + after;
  }

  class EventManager {
    var events: Table

    /** The table holds exactly the five known keys. */
    ghost predicate Valid()
      reads this
      ensures Valid() ==>
        Known[0] in events && Known[1] in events && Known[2] in events
        && Known[3] in events && Known[4] in events
    {
      forall k :: k in events <==> k in Known
    }

    /** `EventManager()`: every known event with no subscribers. */
    constructor ()
      ensures Valid()
      ensures forall k :: k in events ==> events[k] == []
    {
      events := map["CommandNotFound" := [], "ExceptionDuringCommand" := [], "ArgumentCastingError" := [],
                    "CommandReceived" := [], "InvalidPermissions" := []];
    }

    /** `add_event(name, f)`: append `f` to a known event's list, or raise `ValueError`. */
    method AddEvent(n: EventName, f: Fn) returns (out: Outcome)
      modifies this
      ensures Key(n) in old(events) ==>
        out == Returned(NoneValue) && events == old(events)[Key(n) := old(events)[Key(n)] + [f]]
      ensures Key(n) !in old(events) ==> out == Raised(UnknownName(Key(n))) && events == old(events)
      ensures events.Keys == old(events).Keys
      ensures old(Valid()) ==> Valid()
    {
      var key := Key(n);
      if key in events {
        events := events[key := events[key] + [f]];
        out := Returned(NoneValue);
      } else {
        out := Raised(UnknownName(key));
      }
    }

    /** `trigger_event(name, *args)` as written: the debug line raises `TypeError` for an `Event`
        member; otherwise call each subscriber of a known event in order, stopping when one
        raises; an unknown name calls nothing and raises. */
    method TriggerEvent(n: EventName, args: seq<Value>, behave: Behaviour) returns (trace: seq<Step>, out: Outcome)
      ensures Effect(trace, out) == TriggerAsWritten(events, n, args, behave)
      ensures n.Named? ==> Effect(trace, out) == Trigger(events, n, args, behave)
    {
      if n.Member? {
        trace, out := [], Raised(TypeError("can only concatenate str (not \"Event\") to str"));
        return;
      }
      var key := Key(n);
      if key !in events {
        if n == Named("CommandNotFound") {
          out := Raised(CommandNotFoundError("Command not found"));
        } else if n == Named("ExceptionDuringCommand") {
          out := Raised(ExceptionDuringCommandError("Exception occurred during command execution"));
        } else if n == Named("ArgumentCastingError") {
          out := Raised(ArgumentCastingFailure("Error casting argument"));
        } else if n == Named("InvalidPermissions") {
          out := Raised(InvalidPermissionsError("Invalid permissions"));
        } else {
          out := Raised(UnknownName(key));
        }
        trace := [];
        return;
      }
      var subscribers := events[key];
      var calls: seq<Step> := [];
      var i := 0;
      while i < |subscribers|
        invariant 0 <= i <= |subscribers| && |calls| == i
        invariant forall j :: 0 <= j < i ==> calls[j] == Invoked(Call(subscribers[j], args))
        invariant forall j :: 0 <= j < i ==> behave(Call(subscribers[j], args)).Returned?
      {
        var c := Call(subscribers[i], args);
        var o := behave(c);
        calls := calls + [Invoked(c)];
        if o.Raised? {
          var fired := Fire(subscribers, args, behave);
          assert fired.outcome.Raised? && |fired.trace| == i + 1;
          assert fired.trace == calls;
          trace, out := [Fired(key, args)] + calls, o;
          return;
        }
        i := i + 1;
      }
      var fired := Fire(subscribers, args, behave);
      assert fired.outcome.Returned?;
      assert fired.trace == calls;
      trace, out := [Fired(key, args)] + calls, Returned(NoneValue);
    }

    /** `remove_event(name, f)`: drop the first occurrence of `f` from a known event's list;
        raise `ValueError` for an unknown name or an absent `f`. */
    method RemoveEvent(n: EventName, f: Fn) returns (out: Outcome)
      modifies this
      ensures Key(n) in old(events) && f in old(events)[Key(n)] ==>
        out == Returned(NoneValue) && events == old(events)[Key(n) := RemoveFirst(old(events)[Key(n)], f)]
      ensures Key(n) in old(events) && f !in old(events)[Key(n)] ==>
        out == Raised(ValueError("list.remove(x): x not in list")) && events == old(events)
      ensures Key(n) !in old(events) ==> out == Raised(UnknownName(Key(n))) && events == old(events)
      ensures events.Keys == old(events).Keys
      ensures old(Valid()) ==> Valid()
    {
      var key := Key(n);
      if key in events {
        if f in events[key] {
          events := events[key := RemoveFirst(events[key], f)];
          out := Returned(NoneValue);
        } else {
          out := Raised(ValueError("list.remove(x): x not in list"));
        }
      } else {
        out := Raised(UnknownName(key));
      }
    }
  }

  /** Subscribing a new subscriber and then unsubscribing it restores the table. A subscriber
      already in the list would lose its earlier entry instead, so the order would change. */
  lemma AddThenRemove(events: Table, key: string, f: Fn)
    requires key in events && f !in events[key]
    ensures var added := events[key := events[key] + [f]];
      f in added[key] && added[key := RemoveFirst(added[key], f)] == events
  {
    var s := events[key];
    var t := s + [f];
    assert t[|s|] == f && t[..|s|] == s && t[|s| + 1..] == [];
    assert IndexOf(t, f) == |s|;
    assert RemoveFirst(t, f) == s;
  }
}

=== FILE: parsing.dfy ===
/** `Parsing`: mention resolution and parameter-type discovery, plus the decimal text the
    coercer reads with `int(...)`. */
module Parsing {
  import opened Runtime
  import opened Strings

  /** Declared parameter types, as the coercer distinguishes them. `OtherType` is any other
      annotation; it converts a token by being called with it. */
  datatype TypeTag = StrType | IntType | RoleType | UserType | OtherType(id: nat)

  predicate IsDigit(c: char)
  {
    '0' <= c <= '9'
  }

  predicate AllDigits(s: string)
  {
    forall i :: 0 <= i < |s| ==> IsDigit(s[i])
  }

  /** The number a string of decimal digits denotes; leading zeros are allowed. */
  function DigitsValue(d: string): nat
    requires AllDigits(d)
    decreases |d|
  {
    if d == [] then 0 else DigitsValue(d[..|d| - 1]) * 10 + (d[|d| - 1] as int - '0' as int)
  }

  function DigitChar(k: nat): (c: char)
    requires k < 10
    ensures IsDigit(c) && c as int - '0' as int == k
  {
    ('0' as int + k) as char
  }

  /** `str(n)` for `n >= 0`: decimal digits without leading zeros that denote `n`. */
  function NatToDigits(n: nat): (d: string)
    ensures |d| >= 1 && AllDigits(d) && DigitsValue(d) == n
    ensures |d| > 1 ==> d[0] != '0'
  {
    if n < 10 then [DigitChar(n)]
    else
      var d := NatToDigits(n / 10);
      var r := d + [DigitChar(n % 10)];
      assert r[..|r| - 1] == d;
      r
  }

  /** Length of the run of decimal digits at the start of `s`. */
  function DigitRun(s: string): (n: nat)
    ensures n <= |s| && AllDigits(s[..n])
    ensures n < |s| ==> !IsDigit(s[n])
  {
    if s == [] || !IsDigit(s[0]) then 0
    else
      var n := 1 + DigitRun(s[1..]);
      assert s[..n] == [s[0]] + s[1..][..n - 1];
      n
  }

  lemma {:induction false} DigitRunOfDigits(d: string, rest: string)
    requires AllDigits(d)
    requires rest == [] || !IsDigit(rest[0])
    ensures DigitRun(d + rest) == |d|
    decreases |d|
  {
    if d == [] {
      assert d + rest == rest;
    } else {
      assert (d + rest)[0] == d[0] && (d + rest)[1..] == d[1..] + rest;
      DigitRunOfDigits(d[1..], rest);
    }
  }

  /** `re.match(lead + r"(\d+)>", s)`: anchored at the start only; the captured digits. */
  function MatchAfter(s: string, lead: string): (r: Option<string>)
    ensures r.Some? ==>
      |r.value| >= 1 && AllDigits(r.value)
      && |lead| + |r.value| < |s| && s == lead + r.value + ">" + s[|lead| + |r.value| + 1..]
  {
    if StartsWith(s, lead) then
      var rest := s[|lead|..];
      var n := DigitRun(rest);
      if 0 < n < |rest| && rest[n] == '>' then
        assert s == s[..|lead|] + rest[..n] + [rest[n]] + s[|lead| + n + 1..];
        Some(rest[..n])
      else None
    else None
  }

  /** `PING_PATTERN_USER.match(s)`, the pattern `<@!?(\d+)>`: the optional `!` is tried first. */
  function MatchUser(s: string): (r: Option<string>)
    ensures r.Some? ==>
      |r.value| >= 1 && AllDigits(r.value)
      && ((|r.value| + 3 < |s| && s == "<@!" + r.value + ">" + s[|r.value| + 4..])
          || (|r.value| + 2 < |s| && s == "<@" + r.value + ">" + s[|r.value| + 3..]))
  {
    match MatchAfter(s, "<@!")
    case Some(d) => Some(d)
    case None => MatchAfter(s, "<@")
  }

  /** `PING_PATTERN_ROLE.match(s)`, the pattern `<@&(\d+)>`. */
  function MatchRole(s: string): (r: Option<string>)
    ensures r.Some? ==>
      |r.value| >= 1 && AllDigits(r.value)
      && |r.value| + 3 < |s| && s == "<@&" + r.value + ">" + s[|r.value| + 4..]
  {
    MatchAfter(s, "<@&")
  }

  /** `Parsing.resolve_role(v)`: a string that starts with a role mention becomes the mentioned id;
      anything else comes back unchanged. */
  function ResolveRole(v: Value): (r: Value)
    ensures r == v || (v.Str? && StartsWith(v.s, "<@&") && r.Int? && r.i >= 0)
  {
    match v
    case Str(s) =>
      (match MatchRole(s)
       case Some(d) => Int(DigitsValue(d))
       case None => v)
    case _ => v
  }

  /** `Parsing.resolve_user(v)`: a string that starts with a user mention, with or without `!`,
      becomes the mentioned id; anything else comes back unchanged. */
  function ResolveUser(v: Value): (r: Value)
    ensures r == v || (v.Str? && StartsWith(v.s, "<@") && r.Int? && r.i >= 0)
  {
    match v
    case Str(s) =>
      (match MatchUser(s)
       case Some(d) => Int(DigitsValue(d))
       case None => v)
    case _ => v
  }

  /** Whatever `resolve_role` changes is a role mention, `<@&digits>` and any text after it, and
      the result is the digits' value. */
  lemma ResolvedRoleIsMention(v: Value)
    ensures ResolveRole(v) != v ==> exists d, rest ::
      |d| >= 1 && AllDigits(d) && v == Str("<@&" + d + ">" + rest) && ResolveRole(v) == Int(DigitsValue(d))
  {
    if v.Str? && MatchRole(v.s).Some? {
      var d := MatchRole(v.s).value;
      var rest := v.s[|d| + 4..];
      assert v == Str("<@&" + d + ">" + rest);
    }
  }

  /** Whatever `resolve_user` changes is a user mention, `<@digits>` or `<@!digits>` and any text
      after it, and the result is the digits' value. */
  lemma ResolvedUserIsMention(v: Value)
    ensures ResolveUser(v) != v ==> exists d, rest ::
      |d| >= 1 && AllDigits(d)
      && (v == Str("<@!" + d + ">" + rest) || v == Str("<@" + d + ">" + rest))
      && ResolveUser(v) == Int(DigitsValue(d))
  {
    if v.Str? && MatchUser(v.s).Some? {
      var s, d := v.s, MatchUser(v.s).value;
      if |d| + 3 < |s| && s == "<@!" + d + ">" + s[|d| + 4..] {
        assert v == Str("<@!" + d + ">" + s[|d| + 4..]);
      } else {
        assert v == Str("<@" + d + ">" + s[|d| + 3..]);
      }
    }
  }

  lemma MatchMention(lead: string, d: string, rest: string)
    requires |d| >= 1 && AllDigits(d)
    ensures MatchAfter(lead + d + ">" + rest, lead) == Some(d)
  {
    var s := lead + d + ">" + rest;
    assert s[..|lead|] == lead;
    assert s[|lead|..] == d + (">" + rest);
    DigitRunOfDigits(d, ">" + rest);
    assert (d + (">" + rest))[..|d|] == d;
  }

  /** A role mention resolves to its digits' value, whatever text follows the closing `>`. */
  lemma RoleMentionResolves(d: string, rest: string)
    requires |d| >= 1 && AllDigits(d)
    ensures ResolveRole(Str("<@&" + d + ">" + rest)) == Int(DigitsValue(d))
  {
    MatchMention("<@&", d, rest);
  }

  /** A user mention, `<@digits>` or `<@!digits>`, resolves to its digits' value, whatever text
      follows the closing `>`. */
  lemma UserMentionResolves(d: string, rest: string, bang: bool)
    requires |d| >= 1 && AllDigits(d)
    ensures ResolveUser(Str((if bang then "<@!" else "<@") + d + ">" + rest)) == Int(DigitsValue(d))
  {
    if bang {
      MatchMention("<@!", d, rest);
    } else {
      PlainUserMention(d, rest);
    }
  }

  /** `<@digits>` does not match the `<@!` alternative, so the `<@` one captures the digits. */
  lemma PlainUserMention(d: string, rest: string)
    requires |d| >= 1 && AllDigits(d)
    ensures MatchUser("<@" + d + ">" + rest) == Some(d)
  {
    var s := "<@" + d + ">" + rest;
    assert s[2] == d[0];
    assert MatchAfter(s, "<@!") == None;
    MatchMention("<@", d, rest);
  }

  /** Round trip: the mention written for a non-negative id resolves back to that id. */
  lemma MentionRoundTrip(n: nat)
    ensures ResolveUser(Str("<@" + NatToDigits(n) + ">")) == Int(n)
    ensures ResolveUser(Str("<@!" + NatToDigits(n) + ">")) == Int(n)
    ensures ResolveRole(Str("<@&" + NatToDigits(n) + ">")) == Int(n)
  {
    var d := NatToDigits(n);
    UserMentionResolves(d, "", false);
    UserMentionResolves(d, "", true);
    RoleMentionResolves(d, "");
    assert "<@" + d + ">" + "" == "<@" + d + ">";
    assert "<@!" + d + ">" + "" == "<@!" + d + ">";
    assert "<@&" + d + ">" + "" == "<@&" + d + ">";
  }

  /** A role mention is not a user mention: `resolve_user` leaves it unchanged. */
  lemma RoleMentionIsNotUser(d: string, rest: string)
    requires AllDigits(d)
    ensures var s := "<@&" + d + ">" + rest; ResolveUser(Str(s)) == Str(s)
  {
    var s := "<@&" + d + ">" + rest;
    assert s[2] == '&';
    assert !StartsWith(s, "<@!");
    assert s[2..][0] == '&';
  }

  /** A user mention is not a role mention: `resolve_role` leaves it unchanged. */
  lemma UserMentionIsNotRole(d: string, rest: string, bang: bool)
    requires |d| >= 1 && AllDigits(d)
    ensures var s := (if bang then "<@!" else "<@") + d + ">" + rest; ResolveRole(Str(s)) == Str(s)
  {
    var s := (if bang then "<@!" else "<@") + d + ">" + rest;
    assert s[2] == (if bang then '!' else d[0]);
    assert !StartsWith(s, "<@&");
  }

  lemma FirstCharDiffers(s: string, p: string)
    requires s != [] && p != [] && s[0] != p[0]
    ensures !StartsWith(s, p)
  {
    if |p| <= |s| {
      assert s[..|p|][0] == s[0];
    }
  }

  /** A bare number is not a mention: both resolvers return the string itself, not an int. */
  lemma BareNumberUnchanged(s: string)
    requires AllDigits(s)
    ensures ResolveUser(Str(s)) == Str(s) && ResolveRole(Str(s)) == Str(s)
  {
    if s != [] {
      assert s[0] != '<';
      FirstCharDiffers(s, "<@");
      FirstCharDiffers(s, "<@!");
      FirstCharDiffers(s, "<@&");
    }
  }

  /** Digits with single underscores between them, as `int()` accepts (`1_000`). */
  predicate Grouped(s: string)
  {
    |s| >= 1 && IsDigit(s[0]) && IsDigit(s[|s| - 1])
    && (forall i :: 0 <= i < |s| ==> IsDigit(s[i]) || s[i] == '_')
    && (forall i :: 0 <= i < |s| - 1 ==> s[i] == '_' ==> s[i + 1] != '_')
  }

  /** The digits of `s` with the underscores dropped. */
  function Ungrouped(s: string): (d: string)
    requires forall i :: 0 <= i < |s| ==> IsDigit(s[i]) || s[i] == '_'
    ensures AllDigits(d) && |d| <= |s|
    ensures AllDigits(s) ==> d == s
  {
    if s == [] then []
    else (if s[0] == '_' then [] else [s[0]]) + Ungrouped(s[1..])
  }

  /** The whitespace `int()` skips around a number. Non-ASCII whitespace counts, as for
      `str.isspace`; of the ASCII characters only space, tab, line feed, vertical tab, form feed and
      carriage return do, so the separators U+001C to U+001F, which `strip()` removes, are kept. */
  predicate IntSpace(c: char)
  {
    IsSpace(c) && !('\U{001C}' <= c <= '\U{001F}')
  }

  /** `int(token)` in base 10: surrounding whitespace, an optional sign, then grouped digits.
      `None` stands for the `ValueError` it raises otherwise. */
  function ParseInt(token: string): (r: Option<int>)
    ensures r.Some? ==> StripBy(token, IntSpace) != []
  {
    ParseSigned(StripBy(token, IntSpace))
  }

  /** A stripped token: an optional sign, then grouped digits. */
  function ParseSigned(t: string): (r: Option<int>)
    ensures r.Some? ==> t != []
  {
    if |t| > 0 && (t[0] == '-' || t[0] == '+') then
      match GroupedValue(t[1..])
      case Some(n) => Some(if t[0] == '-' then -n else n)
      case None => None
    else GroupedValue(t)
  }

  /** The value of grouped digits, if `body` is grouped digits. */
  function GroupedValue(body: string): (r: Option<int>)
    ensures r.Some? ==> body != [] && r.value >= 0
  {
    if Grouped(body) then Some(DigitsValue(Ungrouped(body))) else None
  }

  /** `str(i)` for any integer. */
  function IntToString(i: int): string
  {
    if i < 0 then "-" + NatToDigits(-i) else NatToDigits(i)
  }

  /** Round trip: `int(str(i)) == i`. */
  lemma ParseIntRoundTrip(i: int)
    ensures ParseInt(IntToString(i)) == Some(i)
  {
    IntTextUnpadded(i);
    SignedText(i);
  }

  /** The sign and digits of `str(i)` read back as `i`. */
  lemma SignedText(i: int)
    ensures ParseSigned(IntToString(i)) == Some(i)
  {
    var n: nat := if i < 0 then -i else i;
    var d := NatToDigits(n);
    var s := IntToString(i);
    if i < 0 {
      assert s[0] == '-' && s[1..] == d;
      SignedNegative(s, d);
    } else {
      SignedUnsigned(s);
    }
  }

  /** `str(i)` has no surrounding whitespace. */
  lemma IntTextUnpadded(i: int)
    ensures StripBy(IntToString(i), IntSpace) == IntToString(i)
  {
    var d := NatToDigits(if i < 0 then -i else i);
    var s := IntToString(i);
    assert IsDigit(d[|d| - 1]) && s[|s| - 1] == d[|d| - 1];
    assert s[0] == '-' || IsDigit(s[0]);
    StripByUnpadded(s, IntSpace);
  }

  /** Digits without a sign parse as their value. */
  lemma SignedUnsigned(d: string)
    requires |d| >= 1 && AllDigits(d)
    ensures ParseSigned(d) == Some(DigitsValue(d) as int)
  {
    assert IsDigit(d[0]);
    DigitsGrouped(d);
  }

  /** `-` followed by digits parses as the negated value. */
  lemma SignedNegative(t: string, d: string)
    requires |d| >= 1 && AllDigits(d) && |t| == |d| + 1 && t[0] == '-' && t[1..] == d
    ensures ParseSigned(t) == Some(-(DigitsValue(d) as int))
  {
    DigitsGrouped(d);
  }

  /** A non-empty run of digits is a grouping with nothing to drop. */
  lemma DigitsGrouped(d: string)
    requires |d| >= 1 && AllDigits(d)
    ensures Grouped(d) && Ungrouped(d) == d
  {
  }

  /** A token that is empty or blank, or that is only a sign once stripped, makes `int()` fail. */
  lemma ParseIntRejects(token: string)
    requires StripBy(token, IntSpace) in {"", "-", "+"}
    ensures ParseInt(token) == None
  {
    var t := StripBy(token, IntSpace);
    var signed := |t| > 0 && (t[0] == '-' || t[0] == '+');
    var body := if signed then t[1..] else t;
    assert body == [];
  }

  /** `int()` does not skip the separator U+001F: digits behind one are rejected, although
      `strip()` removes it. */
  lemma SeparatorNotSkipped(d: string)
    requires |d| >= 1 && AllDigits(d)
    ensures Strip(['\U{001F}'] + d) == d
    ensures ParseInt(['\U{001F}'] + d) == None
  {
    SeparatorStripped(d);
    SeparatorRejected(d);
  }

  lemma SeparatorRejected(d: string)
    requires |d| >= 1 && AllDigits(d)
    ensures ParseInt(['\U{001F}'] + d) == None
  {
    var t := ['\U{001F}'] + d;
    assert t[|t| - 1] == d[|d| - 1];
    DigitNotSpace(d[|d| - 1]);
    ParseIntUnpadded(t);
    NonDigitLeadRejected(t);
  }

  lemma ParseIntUnpadded(t: string)
    requires t == [] || (!IntSpace(t[0]) && !IntSpace(t[|t| - 1]))
    ensures ParseInt(t) == ParseSigned(t)
  {
    StripByUnpadded(t, IntSpace);
  }

  lemma NonDigitLeadRejected(t: string)
    requires t != [] && !IsDigit(t[0]) && t[0] != '-' && t[0] != '+'
    ensures ParseSigned(t) == None
  {
    assert !Grouped(t);
  }

  lemma SeparatorStripped(d: string)
    requires |d| >= 1 && AllDigits(d)
    ensures Strip(['\U{001F}'] + d) == d
  {
    var t := ['\U{001F}'] + d;
    DigitNotSpace(d[0]);
    DigitNotSpace(d[|d| - 1]);
    assert t[1..] == d && TrimStart(t, IsSpace) == TrimStart(d, IsSpace);
    StripUnpadded(d);
  }

  lemma DigitNotSpace(c: char)
    requires IsDigit(c)
    ensures !IsSpace(c) && !IntSpace(c)
  {
  }

  /** The type an annotation stands for; an unannotated parameter counts as `str`. */
  function AnnotatedType(a: Option<TypeTag>): TypeTag
  {
    match a
    case Some(t) => t
    case None => StrType
  }

  /** `types` is what `param_types` gives for a signature whose parameters carry `annotations`:
      one entry per parameter after the first, in order, `str` where there is no annotation. */
  predicate DeclaresTypes(annotations: seq<Option<TypeTag>>, types: seq<TypeTag>)
  {
    |types| == (if |annotations| == 0 then 0 else |annotations| - 1)
    && forall i :: 0 <= i < |types| ==> types[i] == AnnotatedType(annotations[i + 1])
  }

  /** `Parsing.param_types(func)`, with the signature's annotations given as a list. */
  method ParamTypes(annotations: seq<Option<TypeTag>>) returns (types: seq<TypeTag>)
    ensures DeclaresTypes(annotations, types)
  {
    var params := if |annotations| == 0 then [] else annotations[1..];
    types := [];
    var i := 0;
    while i < |params|
      invariant 0 <= i <= |params| && |types| == i
      invariant forall j :: 0 <= j < i ==> types[j] == AnnotatedType(params[j])
    {
      if params[i].Some? {
        types := types + [params[i].value];
      } else {
        types := types + [StrType];
      }
      i := i + 1;
    }
  }
}

=== FILE: restricted.dfy ===
/** `RestrictedManager`: wrappers that run a handler only when the message passes a role, user,
    channel, server or permission check, and otherwise report `InvalidPermissions`. */
module Restricted {
  import opened Runtime
  import opened Events

  /** What a wrapper checks. The id lists are kept as given, since a denial reports the whole list. */
  datatype Check =
    | RoleCheck(role: int)
    | UserCheck(userIds: seq<Value>)
    | ChannelCheck(channelIds: seq<Value>)
    | ServerCheck(serverIds: seq<Value>)
    | PermissionCheck(permissions: seq<Permission>)

  /** A command handler: a plain callable, or a wrapper around another handler whose denials are
      reported through `reporter`. */
  datatype Handler = Plain(fn: Fn) | Guarded(check: Check, reporter: EventManager, inner: Handler)

  /** The tag a denial of `c` carries. */
  function Tag(c: Check): string
  {
    match c
    case RoleCheck(_) => "ROLE"
    case UserCheck(_) => "USER"
    case ChannelCheck(_) => "CHANNEL"
    case ServerCheck(_) => "SERVER"
    case PermissionCheck(_) => "PERMISSION"
  }

  /** Whether `m` satisfies `c`: membership in the author's roles or in an allow-list, or every
      listed permission held. */
  predicate Admits(c: Check, m: Message)
  {
    match c
    case RoleCheck(role) => role in m.authorRoles
    case UserCheck(ids) => Int(m.authorId) in ids
    case ChannelCheck(ids) => Int(m.channelId) in ids
    case ServerCheck(ids) => Int(m.guildId) in ids
    case PermissionCheck(ps) => forall i :: 0 <= i < |ps| ==> ps[i] in m.authorPermissions
  }

  /** Index of the first permission in `ps` that is not held, or `|ps|` when all are held. */
  function FirstMissing(ps: seq<Permission>, held: set<Permission>): (k: nat)
    ensures k <= |ps|
    ensures forall j :: 0 <= j < k ==> ps[j] in held
    ensures k < |ps| ==> ps[k] !in held
  {
    if ps == [] || ps[0] !in held then 0 else 1 + FirstMissing(ps[1..], held)
  }

  /** The `InvalidPermissions` payload a wrapper sends when `c` rejects `m`, or `None` when the
      wrapper lets `m` through: the check's tag, the message, and the required role, the whole
      allow-list, or the first missing permission. */
  function Denial(c: Check, m: Message): (r: Option<seq<Value>>)
    ensures r.None? <==> Admits(c, m)
    ensures r.Some? ==> |r.value| == 3 && r.value[0] == Str(Tag(c)) && r.value[1] == MessageValue(m)
    ensures r.Some? && c.RoleCheck? ==> r.value[2] == RoleValue(c.role)
    ensures r.Some? && c.UserCheck? ==> r.value[2] == ListValue(c.userIds)
    ensures r.Some? && c.ChannelCheck? ==> r.value[2] == ListValue(c.channelIds)
    ensures r.Some? && c.ServerCheck? ==> r.value[2] == ListValue(c.serverIds)
    ensures r.Some? && c.PermissionCheck? ==>
      exists k :: 0 <= k < |c.permissions| && r.value[2] == PermissionValue(c.permissions[k])
        && c.permissions[k] !in m.authorPermissions
        && forall j :: 0 <= j < k ==> c.permissions[j] in m.authorPermissions
  {
    match c
    case RoleCheck(role) =>
      if role in m.authorRoles then None else Some([Str("ROLE"), MessageValue(m), RoleValue(role)])
    case UserCheck(ids) =>
      if Int(m.authorId) in ids then None else Some([Str("USER"), MessageValue(m), ListValue(ids)])
    case ChannelCheck(ids) =>
      if Int(m.channelId) in ids then None else Some([Str("CHANNEL"), MessageValue(m), ListValue(ids)])
    case ServerCheck(ids) =>
      if Int(m.guildId) in ids then None else Some([Str("SERVER"), MessageValue(m), ListValue(ids)])
    case PermissionCheck(ps) =>
      var k := FirstMissing(ps, m.authorPermissions);
      if k == |ps| then None else Some([Str("PERMISSION"), MessageValue(m), PermissionValue(ps[k])])
  }

  /** The event managers the wrappers of `h` report to. */
  ghost function Reporters(h: Handler): set<object>
  {
    match h
    case Plain(_) => {}
    case Guarded(_, reporter, inner) => {reporter} + Reporters(inner)
  }

  /** The reporters of a handler in hand are allocated, so a call that changes nothing leaves
      what the handler does unchanged. */
  lemma ReportersAllocated(h: Handler)
    ensures forall o :: o in Reporters(h) ==> allocated(o)
  {
    match h
    case Plain(_) =>
    case Guarded(_, _, inner) => ReportersAllocated(inner);
  }

  /** Calling handler `h` with `m` and `args`. A wrapper returns `None`; exceptions from the inner
      handler or from a subscriber propagate. */
  function Invoke(h: Handler, m: Message, args: seq<Value>, behave: Behaviour): (r: Effect)
    reads Reporters(h)
    ensures h.Guarded? && r.outcome.Returned? ==> r.outcome == Returned(NoneValue)
    ensures h.Guarded? && Admits(h.check, m) ==>
      r.trace == Invoke(h.inner, m, args, behave).trace
      && (r.outcome.Raised? <==> Invoke(h.inner, m, args, behave).outcome.Raised?)
      && (r.outcome.Raised? ==> r.outcome == Invoke(h.inner, m, args, behave).outcome)
    ensures h.Guarded? && !Admits(h.check, m) ==>
      var t := Trigger(h.reporter.events, Named("InvalidPermissions"), Denial(h.check, m).value, behave);
      r.trace == t.trace && (r.outcome.Raised? <==> t.outcome.Raised?)
      && (r.outcome.Raised? ==> r.outcome == t.outcome)
  {
    match h
    case Plain(fn) =>
      var c := Call(fn, [MessageValue(m)] + args);
      Effect([Invoked(c)], behave(c))
    case Guarded(check, reporter, inner) =>
      var e := match Denial(check, m)
        case None => Invoke(inner, m, args, behave)
        case Some(payload) => Trigger(reporter.events, Named("InvalidPermissions"), payload, behave);
      Effect(e.trace, if e.outcome.Raised? then e.outcome else Returned(NoneValue))
  }

  /** Running a (possibly wrapped) handler: each wrapper checks its condition, the permission
      wrapper walking its list in order and stopping at the first missing permission. */
  method Run(h: Handler, m: Message, args: seq<Value>, behave: Behaviour) returns (trace: seq<Step>, out: Outcome)
    ensures Effect(trace, out) == Invoke(h, m, args, behave)
    decreases h
  {
    match h {
      case Plain(fn) =>
        var c := Call(fn, [MessageValue(m)] + args);
        trace, out := [Invoked(c)], behave(c);
      case Guarded(check, reporter, inner) =>
        var payload: Option<seq<Value>> := None;
        match check {
          case RoleCheck(role) =>
            if role !in m.authorRoles {
              payload := Some([Str("ROLE"), MessageValue(m), RoleValue(role)]);
            }
          case UserCheck(ids) =>
            if Int(m.authorId) !in ids {
              payload := Some([Str("USER"), MessageValue(m), ListValue(ids)]);
            }
          case ChannelCheck(ids) =>
            if Int(m.channelId) !in ids {
              payload := Some([Str("CHANNEL"), MessageValue(m), ListValue(ids)]);
            }
          case ServerCheck(ids) =>
            if Int(m.guildId) !in ids {
              payload := Some([Str("SERVER"), MessageValue(m), ListValue(ids)]);
            }
          case PermissionCheck(ps) =>
            var i := 0;
            while i < |ps|
              invariant 0 <= i <= |ps|
              invariant forall j :: 0 <= j < i ==> ps[j] in m.authorPermissions
            {
              if ps[i] !in m.authorPermissions {
                payload := Some([Str("PERMISSION"), MessageValue(m), PermissionValue(ps[i])]);
                assert FirstMissing(ps, m.authorPermissions) == i;
                break;
              }
              i := i + 1;
            }
        }
        assert payload == Denial(check, m);
        if payload.Some? {
          trace, out := reporter.TriggerEvent(Named("InvalidPermissions"), payload.value, behave);
        } else {
          trace, out := Run(inner, m, args, behave);
        }
        if out.Returned? {
          out := Returned(NoneValue);
        }
    }
  }

  /** The callable at the bottom of a chain of wrappers. */
  function Base(h: Handler): Fn
  {
    match h
    case Plain(fn) => fn
    case Guarded(_, _, inner) => Base(inner)
  }

  /** Every wrapper in the chain lets `m` through. */
  predicate AdmittedBy(h: Handler, m: Message)
  {
    match h
    case Plain(_) => true
    case Guarded(check, _, inner) => Admits(check, m) && AdmittedBy(inner, m)
  }

  /** Every wrapper reports to a manager that holds the five known events. */
  ghost predicate ReportersValid(h: Handler)
    reads Reporters(h)
  {
    match h
    case Plain(_) => true
    case Guarded(_, reporter, inner) => reporter.Valid() && ReportersValid(inner)
  }

  /** When every check passes, the chain calls its base handler exactly once with the message and
      the arguments unchanged, triggers nothing, and raises exactly when the base handler does. */
  lemma {:induction false} AdmittedCallsBaseOnce(h: Handler, m: Message, args: seq<Value>, behave: Behaviour)
    requires AdmittedBy(h, m)
    ensures var c := Call(Base(h), [MessageValue(m)] + args);
      var r := Invoke(h, m, args, behave);
      r.trace == [Invoked(c)]
      && (r.outcome.Raised? <==> behave(c).Raised?)
      && (r.outcome.Raised? ==> r.outcome == behave(c))
  {
    match h
    case Plain(_) =>
    case Guarded(_, _, inner) =>
      AdmittedCallsBaseOnce(inner, m, args, behave);
  }

  /** The check of the outermost wrapper in `h` that rejects `m`. */
  function FirstDenying(h: Handler, m: Message): (c: Check)
    requires !AdmittedBy(h, m)
    ensures !Admits(c, m)
  {
    match h
    case Guarded(check, _, inner) => if !Admits(check, m) then check else FirstDenying(inner, m)
  }

  /** When some check fails, the outermost failing wrapper triggers `InvalidPermissions` exactly
      once, with its own payload; no further check runs and the base handler is never called:
      every call made goes to a subscriber, with the tagged payload rather than the message as
      first argument. */
  lemma {:induction false} DeniedNeverCallsBase(h: Handler, m: Message, args: seq<Value>, behave: Behaviour)
    requires !AdmittedBy(h, m)
    requires ReportersValid(h)
    ensures var r := Invoke(h, m, args, behave);
      FiredEvents(r.trace) == ["InvalidPermissions"]
      && r.trace[0] == Fired("InvalidPermissions", Denial(FirstDenying(h, m), m).value)
      && forall i :: 0 <= i < |r.trace| ==> r.trace[i] != Invoked(Call(Base(h), [MessageValue(m)] + args))
  {
    match h
    case Guarded(check, reporter, inner) =>
      match Denial(check, m)
      case None =>
        DeniedNeverCallsBase(inner, m, args, behave);
      case Some(payload) =>
        assert "InvalidPermissions" == Known[4];
        TriggerFiresOnce(reporter.events, Named("InvalidPermissions"), payload, behave);
        var r := Invoke(h, m, args, behave);
        forall i | 0 <= i < |r.trace|
          ensures r.trace[i] != Invoked(Call(Base(h), [MessageValue(m)] + args))
        {
          if i > 0 && r.trace[i].Invoked? {
            assert r.trace[i].call.args[0] == Str(Tag(check));
          }
        }
  }

  /** Nesting: an outer wrapper that denies decides the result alone; what it wraps is never run. */
  lemma OuterDenialIgnoresInner(c: Check, reporter: EventManager, inner1: Handler, inner2: Handler,
                                m: Message, args: seq<Value>, behave: Behaviour)
    requires !Admits(c, m)
    ensures Invoke(Guarded(c, reporter, inner1), m, args, behave) == Invoke(Guarded(c, reporter, inner2), m, args, behave)
  {
  }

  class RestrictedManager {
    const eventManager: EventManager

    constructor (eventManager: EventManager)
      ensures this.eventManager == eventManager
    {
      this.eventManager := eventManager;
    }

    /** `decorator(func)`: wrap `func` in `check`, reporting denials to this manager's events;
        `WrapRunsOrReports` states what the wrapper does when called. */
    function Wrap(check: Check, func: Handler): (h: Handler)
      ensures Reporters(h) == {eventManager} + Reporters(func) && Base(h) == Base(func)
    {
      Guarded(check, eventManager, func)
    }

    /** `role(role)`: any role object is accepted. */
    function Role(role: int): (c: Check)
      ensures forall m: Message :: Admits(c, m) <==> role in m.authorRoles
    {
      RoleCheck(role)
    }

    /** `user(user_id)`: a `TypeError` before any wrapper exists unless every id is an int. */
    function User(ids: seq<Value>): (r: Result<Check>)
      ensures r.Ok? <==> forall i :: 0 <= i < |ids| ==> ids[i].Int?
      ensures r.Ok? ==> forall m: Message :: Admits(r.value, m) <==> Int(m.authorId) in ids
      ensures r.Err? ==> r.error == TypeError("user_id must be a list of integers")
    {
      if forall i :: 0 <= i < |ids| ==> ids[i].Int? then Ok(UserCheck(ids))
      else Err(TypeError("user_id must be a list of integers"))
    }

    /** `channel(channel_id)`: as `user`, checking the message's channel. */
    function Channel(ids: seq<Value>): (r: Result<Check>)
      ensures r.Ok? <==> forall i :: 0 <= i < |ids| ==> ids[i].Int?
      ensures r.Ok? ==> forall m: Message :: Admits(r.value, m) <==> Int(m.channelId) in ids
      ensures r.Err? ==> r.error == TypeError("channel_id must be a list of integers")
    {
      if forall i :: 0 <= i < |ids| ==> ids[i].Int? then Ok(ChannelCheck(ids))
      else Err(TypeError("channel_id must be a list of integers"))
    }

    /** `server(server_id)`: as `user`, checking the message's guild. */
    function Server(ids: seq<Value>): (r: Result<Check>)
      ensures r.Ok? <==> forall i :: 0 <= i < |ids| ==> ids[i].Int?
      ensures r.Ok? ==> forall m: Message :: Admits(r.value, m) <==> Int(m.guildId) in ids
      ensures r.Err? ==> r.error == TypeError("server_id must be a list of integers")
    {
      if forall i :: 0 <= i < |ids| ==> ids[i].Int? then Ok(ServerCheck(ids))
      else Err(TypeError("server_id must be a list of integers"))
    }

    /** `permission(permissions)`: a `TypeError` unless every element is a permission; the
        check keeps the permissions in the order given. */
    function Permissions(ps: seq<Value>): (r: Result<Check>)
      ensures r.Ok? <==> forall i :: 0 <= i < |ps| ==> ps[i].PermissionValue?
      ensures r.Ok? ==> (r.value.PermissionCheck? && |r.value.permissions| == |ps|
        && forall i :: 0 <= i < |ps| ==> ps[i] == PermissionValue(r.value.permissions[i]))
      ensures r.Err? ==> r.error == TypeError("permissions must be a list of DiscordPermissions")
    {
      if forall i :: 0 <= i < |ps| ==> ps[i].PermissionValue? then
        Ok(PermissionCheck(seq(|ps|, i requires 0 <= i < |ps| => ps[i].permission)))
      else Err(TypeError("permissions must be a list of DiscordPermissions"))
    }
  }

  /** The wrapper `decorator(func)` returns runs `func` unchanged when the message passes the
      check and otherwise only triggers `InvalidPermissions` on the manager's events with the
      denial payload; it returns `None` unless something it runs raises. */
  lemma WrapRunsOrReports(rm: RestrictedManager, check: Check, func: Handler,
                          m: Message, args: seq<Value>, behave: Behaviour)
    ensures var r := Invoke(rm.Wrap(check, func), m, args, behave);
      var inner := Invoke(func, m, args, behave);
      (Admits(check, m) ==>
        r.trace == inner.trace && (r.outcome.Raised? <==> inner.outcome.Raised?)
        && (r.outcome.Raised? ==> r.outcome == inner.outcome))
      && (!Admits(check, m) ==>
        var t := Trigger(rm.eventManager.events, Named("InvalidPermissions"), Denial(check, m).value, behave);
        r.trace == t.trace && (r.outcome.Raised? <==> t.outcome.Raised?)
        && (r.outcome.Raised? ==> r.outcome == t.outcome))
      && (r.outcome.Returned? ==> r.outcome == Returned(NoneValue))
  {
  }
}

=== FILE: runtime.dfy ===
/** Values, calls, exceptions and traces shared by every part of the command handler model.
    Python callables (command handlers, event subscribers) are opaque identities whose behaviour
    is given by a `Behaviour` oracle; every call the model makes into them, and every event it
    triggers, is recorded as one `Step` of a trace. */
module Runtime {

  datatype Option<T> = None | Some(value: T)

  /** Identity of a Python callable: a command handler or an event subscriber. */
  datatype Fn = Fn(id: nat)

  /** A Discord permission flag, named by the attribute of `guild_permissions` it reads. */
  datatype Permission = Permission(name: string)

  /** The parts of an incoming message that the handler looks at. Roles are identified by id. */
  datatype Message = Message(
    content: string,
    authorId: int,
    authorRoles: seq<int>,
    authorPermissions: set<Permission>,
    channelId: int,
    guildId: int)

  /** Python exceptions the core raises or lets through. */
  datatype Error =
    | ValueError(text: string)
    | TypeError(text: string)
    | AttributeError(text: string)
    | CommandNotFoundError(text: string)
    | ExceptionDuringCommandError(text: string)
    | ArgumentCastingFailure(text: string)
    | InvalidPermissionsError(text: string)
    | UserError(id: nat)   // raised by a handler or subscriber outside the model

  /** Python values passed to handlers and subscribers. */
  datatype Value =
    | NoneValue
    | Str(s: string)
    | Int(i: int)
    | MessageValue(message: Message)
    | CommandValue(command: object)
    | ErrorValue(error: Error)
    | RoleValue(role: int)
    | PermissionValue(permission: Permission)
    | ListValue(items: seq<Value>)
    | Opaque(id: nat)   // a value built by an annotation the model does not interpret

  datatype Result<T> = Ok(value: T) | Err(error: Error)

  /** One call into a callable, with its positional arguments. */
  datatype Call = Call(fn: Fn, args: seq<Value>)

  /** How a call ended: it returned a value, or it raised. */
  datatype Outcome = Returned(value: Value) | Raised(error: Error)

  /** What each callable does when called: the model's stand-in for user code. */
  type Behaviour = Call -> Outcome

  /** One observable step: a callable invoked, or a known event triggered. */
  datatype Step = Invoked(call: Call) | Fired(event: string, args: seq<Value>)

  /** The steps one operation performs and how it ends. */
  datatype Effect = Effect(trace: seq<Step>, outcome: Outcome)

  /** The names of the events triggered along a trace, in order. */
  function FiredEvents(trace: seq<Step>): (names: seq<string>)
    ensures |names| <= |trace|
  {
    if trace == [] then []
    else (if trace[0].Fired? then [trace[0].event] else []) + FiredEvents(trace[1..])
  }

  lemma {:induction false} FiredEventsAppend(a: seq<Step>, b: seq<Step>)
    ensures FiredEvents(a + b) == FiredEvents(a) + FiredEvents(b)
  {
    if a == [] {
      assert a + b == b;
    } else {
      assert (a + b)[0] == a[0] && (a + b)[1..] == a[1..] + b;
      FiredEventsAppend(a[1..], b);
    }
  }

  lemma {:induction false} FiredEventsOfInvocations(trace: seq<Step>)
    requires forall i :: 0 <= i < |trace| ==> trace[i].Invoked?
    ensures FiredEvents(trace) == []
  {
    if trace != [] {
      FiredEventsOfInvocations(trace[1..]);
    }
  }
}

=== FILE: strings.dfy ===
/** The Python `str` operations the resolver relies on: `startswith`, `strip()` with no
    argument, `split(" ")` and `" ".join`. */
module Strings {

  /** `s.startswith(prefix)`; every string starts with the empty prefix. */
  predicate StartsWith(s: string, prefix: string)
  {
    |prefix| <= |s| && s[..|prefix|] == prefix
  }

  /** The characters Python's `str.isspace` accepts, which `strip()` removes. */
  predicate IsSpace(c: char)
  {
    c == ' ' || ('\U{0009}' <= c <= '\U{000D}') || ('\U{001C}' <= c <= '\U{001F}')
    || c == '\U{0085}' || c == '\U{00A0}' || c == '\U{1680}'
    || ('\U{2000}' <= c <= '\U{200A}') || c == '\U{2028}' || c == '\U{2029}'
    || c == '\U{202F}' || c == '\U{205F}' || c == '\U{3000}'
  }

  /** `s` with its leading characters that satisfy `blank` removed. */
  function TrimStart(s: string, blank: char -> bool): (r: string)
    ensures |r| <= |s| && r == s[|s| - |r|..]
    ensures r == [] || !blank(r[0])
    ensures forall i :: 0 <= i < |s| - |r| ==> blank(s[i])
  {
    if s != [] && blank(s[0]) then TrimStart(s[1..], blank) else s
  }

  /** `s` with its trailing characters that satisfy `blank` removed. */
  function TrimEnd(s: string, blank: char -> bool): (r: string)
    ensures |r| <= |s| && r == s[..|r|]
    ensures r == [] || !blank(r[|r| - 1])
    ensures forall i :: |r| <= i < |s| ==> blank(s[i])
  {
    if s != [] && blank(s[|s| - 1]) then TrimEnd(s[..|s| - 1], blank) else s
  }

  /** The slice of `s` left once the characters satisfying `blank` are removed from both ends. */
  function StripBy(s: string, blank: char -> bool): (r: string)
    ensures |r| <= |s|
    ensures r == [] || (!blank(r[0]) && !blank(r[|r| - 1]))
    ensures exists a, b ::
      0 <= a <= b <= |s| && r == s[a..b]
      && (forall i :: 0 <= i < a ==> blank(s[i]))
      && (forall i :: b <= i < |s| ==> blank(s[i]))
  {
    var t := TrimStart(s, blank);
    var r := TrimEnd(t, blank);
    SuffixPrefix(s, t, r, blank);
    r
  }

  /** A prefix `r` of a suffix `t` of `s` is a slice of `s`; what follows `r` in `t` follows it
      in `s`. */
  lemma SuffixPrefix(s: string, t: string, r: string, blank: char -> bool)
    requires |t| <= |s| && t == s[|s| - |t|..] && |r| <= |t| && r == t[..|r|]
    requires forall i :: |r| <= i < |t| ==> blank(t[i])
    ensures var a := |s| - |t|;
      r == s[a..a + |r|] && forall i :: a + |r| <= i < |s| ==> blank(s[i])
  {
    var a := |s| - |t|;
    assert s[a..][..|r|] == s[a..a + |r|];
    forall i | a + |r| <= i < |s| ensures blank(s[i]) {
      assert s[i] == t[i - a];
    }
  }

  /** A string with no blank character at either end is left alone. */
  lemma StripByUnpadded(s: string, blank: char -> bool)
    requires s == [] || (!blank(s[0]) && !blank(s[|s| - 1]))
    ensures StripBy(s, blank) == s
  {
  }

  /** `s.strip()`: the slice of `s` left once the whitespace before and after it is removed;
      it neither starts nor ends with whitespace. */
  function Strip(s: string): (r: string)
    ensures |r| <= |s|
    ensures r == [] || (!IsSpace(r[0]) && !IsSpace(r[|r| - 1]))
    ensures exists a, b ::
      0 <= a <= b <= |s| && r == s[a..b]
      && (forall i :: 0 <= i < a ==> IsSpace(s[i]))
      && (forall i :: b <= i < |s| ==> IsSpace(s[i]))
  {
    var t := TrimStart(s, IsSpace);
    SuffixPrefix(s, t, TrimEnd(t, IsSpace), IsSpace);
    StripBy(s, IsSpace)
  }

  /** A string with no whitespace at either end is left alone by `strip()`. */
  lemma StripUnpadded(s: string)
    requires s == [] || (!IsSpace(s[0]) && !IsSpace(s[|s| - 1]))
    ensures Strip(s) == s
  {
    StripByUnpadded(s, IsSpace);
  }

  /** Index of the first single space in `s`, or `|s|` when there is none. */
  function SpaceIndex(s: string): (k: nat)
    ensures k <= |s|
    ensures forall i :: 0 <= i < k ==> s[i] != ' '
    ensures k < |s| ==> s[k] == ' '
  {
    if s == [] || s[0] == ' ' then 0 else 1 + SpaceIndex(s[1..])
  }

  /** `s.split(" ")`: cut at every single space, so two spaces in a row give an empty piece. */
  function Split(s: string): (parts: seq<string>)
    ensures |parts| >= 1
    ensures forall i :: 0 <= i < |parts| ==> ' ' !in parts[i]
    decreases |s|
  {
    var k := SpaceIndex(s);
    if k == |s| then [s] else [s[..k]] + Split(s[k + 1..])
  }

  /** `" ".join(parts)`. */
  function Join(parts: seq<string>): string
  {
    if parts == [] then ""
    else if |parts| == 1 then parts[0]
    else parts[0] + " " + Join(parts[1..])
  }

  /** Joining the pieces of a split gives the string back. */
  lemma {:induction false} JoinSplit(s: string)
    ensures Join(Split(s)) == s
    decreases |s|
  {
    var k := SpaceIndex(s);
    if k == |s| {
      assert Split(s) == [s];
    } else {
      var head, tail := s[..k], s[k + 1..];
      CutAtSpace(s, k);
      assert Split(s) == [head] + Split(tail);
      JoinSplit(tail);
      JoinCons(head, Split(tail));
    }
  }

  /** A string is the part before a space, the space, and the part after it. */
  lemma CutAtSpace(s: string, k: nat)
    requires k < |s| && s[k] == ' '
    ensures s == s[..k] + " " + s[k + 1..]
  {
    assert s[k..] == " " + s[k + 1..];
    assert s == s[..k] + s[k..];
  }

  /** Joining a piece in front of at least one more piece puts a single space between. */
  lemma JoinCons(head: string, rest: seq<string>)
    requires |rest| >= 1
    ensures Join([head] + rest) == head + " " + Join(rest)
  {
    assert ([head] + rest)[1..] == rest;
  }

  lemma {:induction false} SpaceIndexAfterWord(p: string, rest: string)
    requires ' ' !in p
    ensures SpaceIndex(p + " " + rest) == |p|
    decreases |p|
  {
    if p != [] {
      assert (p + " " + rest)[1..] == p[1..] + " " + rest;
      SpaceIndexAfterWord(p[1..], rest);
    }
  }

  /** Splitting a join of space-free pieces gives the pieces back. */
  lemma {:induction false} SplitJoin(parts: seq<string>)
    requires |parts| >= 1
    requires forall i :: 0 <= i < |parts| ==> ' ' !in parts[i]
    ensures Split(Join(parts)) == parts
    decreases |parts|
  {
    if |parts| == 1 {
      assert SpaceIndex(parts[0]) == |parts[0]|;
    } else {
      var p, rest := parts[0], Join(parts[1..]);
      var s := p + " " + rest;
      assert Join(parts) == s;
      SpaceIndexAfterWord(p, rest);
      assert s[..|p|] == p && s[|p| + 1..] == rest;
      assert Split(s) == [p] + Split(rest);
      SplitJoin(parts[1..]);
      assert parts == [p] + parts[1..];
    }
  }

  /** Joining a prefix with the already-joined rest is joining everything. */
  lemma {:induction false} JoinJoinedTail(a: seq<string>, b: seq<string>)
    requires |b| >= 1
    ensures Join(a + [Join(b)]) == Join(a + b)
    decreases |a|
  {
    if a == [] {
      assert a + [Join(b)] == [Join(b)] && a + b == b;
    } else {
      assert (a + [Join(b)])[1..] == a[1..] + [Join(b)];
      assert (a + b)[1..] == a[1..] + b;
      JoinJoinedTail(a[1..], b);
    }
  }

  /** A join of non-empty pieces starts with the first piece's first character and ends with the
      last piece's last character. */
  lemma {:induction false} JoinEnds(parts: seq<string>)
    requires |parts| >= 1
    requires forall i :: 0 <= i < |parts| ==> parts[i] != []
    ensures |Join(parts)| >= 1 && Join(parts)[0] == parts[0][0]
    ensures Join(parts)[|Join(parts)| - 1] == parts[|parts| - 1][|parts[|parts| - 1]| - 1]
    decreases |parts|
  {
    if |parts| > 1 {
      JoinEnds(parts[1..]);
    }
  }

  /** `strip()` removes one blank in front of an unpadded string. */
  lemma StripAfterBlank(s: string)
    requires s != [] && !IsSpace(s[0]) && !IsSpace(s[|s| - 1])
    ensures Strip(" " + s) == s
  {
    var t := " " + s;
    assert t[0] == ' ' && t[1..] == s;
    assert TrimStart(t, IsSpace) == TrimStart(s, IsSpace);
    assert TrimStart(s, IsSpace) == s;
    assert TrimEnd(s, IsSpace) == s;
  }
}

=== FILE: utils.dfy ===
/** The dispatch helpers: recognising a command message, splitting it into a command name and
    arguments, and running the named command with its arguments coerced to the declared types. */
module Utils {
  import opened Runtime
  import opened Strings
  import opened Parsing
  import opened Events
  import opened Restricted
  import opened Commands

  /** Index of the first string in `cands` that `content` starts with, or `|cands|`. This is the
      search both `any(content.startswith(p) ...)` and `next(alias ... if content.startswith(alias))`
      perform. */
  function FirstStart(cands: seq<string>, content: string): (k: nat)
    ensures k <= |cands|
    ensures forall j :: 0 <= j < k ==> !StartsWith(content, cands[j])
    ensures k < |cands| ==> StartsWith(content, cands[k])
  {
    if cands == [] || StartsWith(content, cands[0]) then 0
    else 1 + FirstStart(cands[1..], content)
  }

  /** `is_command_message(prefix_list, message)`: the content starts with one of the prefixes,
      which is exactly when the extractor finds a first prefix to cut. */
  predicate IsCommandMessage(prefixes: seq<string>, m: Message)
    ensures IsCommandMessage(prefixes, m) <==> FirstStart(prefixes, m.content) < |prefixes|
  {
    exists i | 0 <= i < |prefixes| :: StartsWith(m.content, prefixes[i])
  }

  /** The text after the first prefix `content` starts with, stripped; `content` itself, not
      stripped, when no prefix matches. */
  function AfterPrefix(prefixes: seq<string>, content: string): (rest: string)
    ensures (forall i :: 0 <= i < |prefixes| ==> !StartsWith(content, prefixes[i])) ==> rest == content
    ensures var k := FirstStart(prefixes, content);
      k < |prefixes| ==>
        |rest| <= |content| - |prefixes[k]| && (rest == [] || (!IsSpace(rest[0]) && !IsSpace(rest[|rest| - 1])))
  {
    var k := FirstStart(prefixes, content);
    if k < |prefixes| then Strip(content[|prefixes[k]|..]) else content
  }

  /** When `prefixes[k]` is the first prefix `content` starts with, the result is `strip()` of
      the text after that prefix: by `Strings.Strip`, a slice of it with only whitespace cut from
      either end. A later, longer matching prefix is never the one cut. */
  lemma AfterPrefixStripsRest(prefixes: seq<string>, content: string, k: nat)
    requires k < |prefixes| && StartsWith(content, prefixes[k])
    requires forall j :: 0 <= j < k ==> !StartsWith(content, prefixes[j])
    ensures AfterPrefix(prefixes, content) == Strip(content[|prefixes[k]|..])
  {
    assert FirstStart(prefixes, content) == k;
  }

  /** The name `extract_command_info` takes from `c`: the first of its name and aliases that
      `content` starts with, provided that one is not empty (an empty one is falsy, and the search
      moves on to the next command). */
  function Opener(c: Command, content: string): (r: Option<string>)
    ensures r.Some? ==> r.value != "" && StartsWith(content, r.value) && (r.value == c.name || r.value in c.aliases)
    ensures var cands := [c.name] + c.aliases; var j := FirstStart(cands, content);
      (r.Some? <==> j < |cands| && cands[j] != "") && (r.Some? ==> r.value == cands[j])
  {
    var cands := [c.name] + c.aliases;
    var j := FirstStart(cands, content);
    if j < |cands| && cands[j] != "" then Some(cands[j]) else None
  }

  /** Index of the first command that `Opener` names, or `|commands|`. */
  function FirstOpened(commands: seq<Command>, content: string): (k: nat)
    ensures k <= |commands|
    ensures forall j :: 0 <= j < k ==> Opener(commands[j], content).None?
    ensures k < |commands| ==> Opener(commands[k], content).Some?
  {
    if commands == [] || Opener(commands[0], content).Some? then 0
    else 1 + FirstOpened(commands[1..], content)
  }

  /** `FirstStart` is `i` when no candidate before `i` matches and the one at `i`, if any, does. */
  lemma FirstStartAt(cands: seq<string>, content: string, i: nat)
    requires i <= |cands|
    requires forall j :: 0 <= j < i ==> !StartsWith(content, cands[j])
    requires i < |cands| ==> StartsWith(content, cands[i])
    ensures FirstStart(cands, content) == i
  {
  }

  /** `FirstOpened` is `k` when no command before `k` yields a name and the one at `k`, if any,
      does. */
  lemma FirstOpenedAt(commands: seq<Command>, content: string, k: nat)
    requires k <= |commands|
    requires forall j :: 0 <= j < k ==> Opener(commands[j], content).None?
    requires k < |commands| ==> Opener(commands[k], content).Some?
    ensures FirstOpened(commands, content) == k
  {
  }

  /** `content.split(" ") if content else []`. */
  function Tokens(s: string): (r: seq<string>)
    ensures r == [] <==> s == ""
    ensures Join(r) == s
    ensures forall i :: 0 <= i < |r| ==> ' ' !in r[i]
  {
    if s == "" then [] else JoinSplit(s); Split(s)
  }

  datatype CommandInfo = CommandInfo(name: Option<string>, args: seq<string>)

  /** What `extract_command_info` returns for a message with `content`. */
  function Extract(prefixes: seq<string>, commands: seq<Command>, content: string): (r: CommandInfo)
    ensures var rest := AfterPrefix(prefixes, content);
      (r.name.Some? <==> exists c :: c in commands && Opener(c, rest).Some?)
      && (r.name.Some? ==>
        r.name.value != "" && StartsWith(rest, r.name.value)
        && exists c :: c in commands && (r.name.value == c.name || r.name.value in c.aliases))
      && (r.name.None? ==> r.args == Tokens(rest))
    ensures forall i :: 0 <= i < |r.args| ==> ' ' !in r.args[i]
  {
    var rest := AfterPrefix(prefixes, content);
    var k := FirstOpened(commands, rest);
    if k < |commands| then
      var name := Opener(commands[k], rest).value;
      CommandInfo(Some(name), Tokens(Strip(rest[|name|..])))
    else CommandInfo(None, Tokens(rest))
  }

  /** The first loop of `extract_command_info`: cut the first matching prefix and strip. */
  method CutPrefix(prefixes: seq<string>, content: string) returns (rest: string)
    ensures rest == AfterPrefix(prefixes, content)
  {
    rest := content;
    var i := 0;
    while i < |prefixes|
      invariant 0 <= i <= |prefixes|
      invariant rest == content
      invariant forall j :: 0 <= j < i ==> !StartsWith(content, prefixes[j])
    {
      if StartsWith(rest, prefixes[i]) {
        FirstStartAt(prefixes, content, i);
        rest := Strip(rest[|prefixes[i]|..]);
        return;
      }
      i := i + 1;
    }
    FirstStartAt(prefixes, content, i);
  }

  /** The second loop of `extract_command_info`: find the first command that opens `content`,
      cut its name and strip. */
  method CutName(commands: seq<Command>, content: string) returns (name: Option<string>, rest: string)
    ensures var k := FirstOpened(commands, content);
      if k < |commands| then
        name == Opener(commands[k], content) && rest == Strip(content[|name.value|..])
      else name == None && rest == content
  {
    rest := content;
    name := None;
    var k := 0;
    while k < |commands|
      invariant 0 <= k <= |commands|
      invariant rest == content && name == None
      invariant forall j :: 0 <= j < k ==> Opener(commands[j], content) == None
    {
      var cmd := commands[k];
      var cands := [cmd.name] + cmd.aliases;
      var j := FirstStart(cands, rest);
      if j < |cands| && cands[j] != "" {
        FirstOpenedAt(commands, content, k);
        name := Some(cands[j]);
        rest := Strip(rest[|cands[j]|..]);
        return;
      }
      assert Opener(commands[k], content) == None;
      k := k + 1;
    }
    FirstOpenedAt(commands, content, k);
  }

  /** `extract_command_info(prefix_list, commands, message)`. */
  method ExtractCommandInfo(prefixes: seq<string>, commands: seq<Command>, m: Message)
    returns (name: Option<string>, args: seq<string>)
    ensures CommandInfo(name, args) == Extract(prefixes, commands, m.content)
  {
    var content := CutPrefix(prefixes, m.content);
    name, content := CutName(commands, content);
    args := if content == "" then [] else Split(content);
  }

  /** A string with no whitespace in it, of at least one character: what a message token is once
      the message is cut at single spaces. */
  predicate Word(t: string)
  {
    t != [] && forall j :: 0 <= j < |t| ==> !IsSpace(t[j])
  }

  /** The argument text a message carries after its command name. */
  function Spaced(tokens: seq<string>): string
  {
    if tokens == [] then "" else " " + Join(tokens)
  }

  /** Words joined by single spaces neither start nor end with whitespace. */
  lemma WordsJoinUnpadded(tokens: seq<string>)
    requires |tokens| >= 1
    requires forall i :: 0 <= i < |tokens| ==> Word(tokens[i])
    ensures Join(tokens) != [] && !IsSpace(Join(tokens)[0]) && !IsSpace(Join(tokens)[|Join(tokens)| - 1])
  {
    var first, last := tokens[0], tokens[|tokens| - 1];
    assert Word(first) && Word(last);
    JoinEnds(tokens);
  }

  /** The argument text after a command name gives back its words. */
  lemma TokensOfSpaced(tokens: seq<string>)
    requires forall i :: 0 <= i < |tokens| ==> Word(tokens[i])
    ensures Tokens(Strip(Spaced(tokens))) == tokens
  {
    if tokens != [] {
      WordsJoinUnpadded(tokens);
      StripAfterBlank(Join(tokens));
      forall i | 0 <= i < |tokens|
        ensures ' ' !in tokens[i]
      {
        assert Word(tokens[i]);
      }
      SplitJoin(tokens);
    }
  }

  /** Round trip: a message made of the first prefix, the first command's name and space-separated
      words is taken apart into that name and those words. */
  lemma ExtractRoundTrip(prefixes: seq<string>, commands: seq<Command>, tokens: seq<string>)
    requires |prefixes| >= 1 && |commands| >= 1
    requires commands[0].name != [] && !IsSpace(commands[0].name[0])
    requires !IsSpace(commands[0].name[|commands[0].name| - 1])
    requires forall i :: 0 <= i < |tokens| ==> Word(tokens[i])
    ensures Extract(prefixes, commands, prefixes[0] + commands[0].name + Spaced(tokens))
      == CommandInfo(Some(commands[0].name), tokens)
  {
    var c := commands[0];
    var rest := c.name + Spaced(tokens);
    PrefixCutBeforeName(prefixes, c.name, tokens);
    FirstNameOpens(commands, Spaced(tokens));
    ArgumentsAfterName(c.name, tokens);
    ExtractFirstCommand(prefixes, commands, prefixes[0] + c.name + Spaced(tokens), rest);
  }

  lemma PrefixCutBeforeName(prefixes: seq<string>, name: string, tokens: seq<string>)
    requires |prefixes| >= 1
    requires name != [] && !IsSpace(name[0]) && !IsSpace(name[|name| - 1])
    requires forall i :: 0 <= i < |tokens| ==> Word(tokens[i])
    ensures AfterPrefix(prefixes, prefixes[0] + name + Spaced(tokens)) == name + Spaced(tokens)
  {
    var rest := name + Spaced(tokens);
    assert prefixes[0] + name + Spaced(tokens) == prefixes[0] + rest;
    RestUnpadded(name, tokens);
    FirstPrefixCut(prefixes, rest);
  }

  lemma ArgumentsAfterName(name: string, tokens: seq<string>)
    requires forall i :: 0 <= i < |tokens| ==> Word(tokens[i])
    ensures Tokens(Strip((name + Spaced(tokens))[|name|..])) == tokens
  {
    assert (name + Spaced(tokens))[|name|..] == Spaced(tokens);
    TokensOfSpaced(tokens);
  }

  lemma ExtractFirstCommand(prefixes: seq<string>, commands: seq<Command>, content: string, rest: string)
    requires |commands| >= 1
    requires AfterPrefix(prefixes, content) == rest
    requires FirstOpened(commands, rest) == 0 && Opener(commands[0], rest) == Some(commands[0].name)
    ensures Extract(prefixes, commands, content)
      == CommandInfo(Some(commands[0].name), Tokens(Strip(rest[|commands[0].name|..])))
  {
  }

  lemma RestUnpadded(name: string, tokens: seq<string>)
    requires name != [] && !IsSpace(name[0]) && !IsSpace(name[|name| - 1])
    requires forall i :: 0 <= i < |tokens| ==> Word(tokens[i])
    ensures var rest := name + Spaced(tokens); rest != [] && !IsSpace(rest[0]) && !IsSpace(rest[|rest| - 1])
  {
    var rest := name + Spaced(tokens);
    assert rest[0] == name[0];
    if tokens != [] {
      WordsJoinUnpadded(tokens);
      assert rest[|rest| - 1] == Join(tokens)[|Join(tokens)| - 1];
    } else {
      assert rest == name;
    }
  }

  lemma FirstPrefixCut(prefixes: seq<string>, rest: string)
    requires |prefixes| >= 1
    requires rest != [] && !IsSpace(rest[0]) && !IsSpace(rest[|rest| - 1])
    ensures AfterPrefix(prefixes, prefixes[0] + rest) == rest
  {
    var content := prefixes[0] + rest;
    assert content[..|prefixes[0]|] == prefixes[0];
    assert FirstStart(prefixes, content) == 0;
    assert content[|prefixes[0]|..] == rest;
    StripUnpadded(rest);
  }

  lemma FirstNameOpens(commands: seq<Command>, tail: string)
    requires |commands| >= 1 && commands[0].name != []
    ensures var rest := commands[0].name + tail;
      FirstOpened(commands, rest) == 0 && Opener(commands[0], rest) == Some(commands[0].name)
  {
    var c := commands[0];
    var rest := c.name + tail;
    assert rest[..|c.name|] == c.name;
    assert FirstStart([c.name] + c.aliases, rest) == 0;
  }

  /** With no prefix matching, the extractor works on the whole content, unstripped. */
  lemma NonCommandMessageKeepsContent(prefixes: seq<string>, commands: seq<Command>, m: Message)
    requires !IsCommandMessage(prefixes, m)
    ensures AfterPrefix(prefixes, m.content) == m.content
    ensures FirstOpened(commands, m.content) == |commands| ==>
      Extract(prefixes, commands, m.content) == CommandInfo(None, Tokens(m.content))
  {
  }

  /** Surplus tokens are bundled into the last declared slot: with more tokens than the `n`
      declared types, `args[:n - 1] + [" ".join(args[n - 1:])]`. For `n == 0` the bound `n - 1` is
      Python's index `-1`, one before the end. */
  function Bundle(args: seq<string>, n: nat): (r: seq<string>)
    ensures |r| <= |args| && Join(r) == Join(args)
    ensures 1 <= n < |args| ==> |r| == n
  {
    if |args| > n then
      var cut := if n >= 1 then n - 1 else |args| - 1;
      JoinJoinedTail(args[..cut], args[cut..]);
      assert args[..cut] + args[cut..] == args;
      args[..cut] + [Join(args[cut..])]
    else args
  }

  /** Bundling leaves at most the declared number of arguments unchanged, keeps the first `n - 1`
      tokens and joins the rest into slot `n - 1`; with no declared types it changes nothing. */
  lemma BundleShape(args: seq<string>, n: nat)
    ensures |args| <= n ==> Bundle(args, n) == args
    ensures n == 0 ==> Bundle(args, n) == args
    ensures 1 <= n < |args| ==>
      |Bundle(args, n)| == n && Bundle(args, n)[..n - 1] == args[..n - 1]
      && Bundle(args, n)[n - 1] == Join(args[n - 1..])
  {
    if |args| > n && n == 0 {
      var cut := |args| - 1;
      assert args[cut..] == [args[cut]];
      assert args[..cut] + [args[cut]] == args;
    }
  }

  /** A command with one declared parameter receives everything after its name as one argument. */
  lemma OneParameterTakesRest(s: string)
    requires s != ""
    ensures Bundle(Tokens(s), 1) == [s]
  {
    JoinSplit(s);
    if |Split(s)| == 1 {
      assert Split(s) == [Split(s)[0]];
    } else {
      assert Split(s)[..0] == [] && Split(s)[0..] == Split(s);
    }
  }

  /** The declared type of argument `i`; an argument beyond the declared ones is a `str`. */
  function TypeAt(types: seq<TypeTag>, i: nat): TypeTag
  {
    if i < |types| then types[i] else StrType
  }

  /** How calling an arbitrary annotation type with a token comes out: the annotation's index
      and the token determine it. */
  type Converter = (nat, string) -> Outcome

  /** One token's coercion: a value, a `ValueError` (which the coercer catches), or any other
      exception (which escapes). */
  datatype Cast = Converted(value: Value) | Rejected | Escaped(error: Error)

  function CastToken(t: TypeTag, token: string, convert: Converter): (r: Cast)
    ensures t == StrType ==> r == Converted(Str(token))
    ensures t == IntType ==> (r.Rejected? <==> ParseInt(token).None?)
    ensures t == IntType && r.Converted? ==> r.value == Int(ParseInt(token).value)
    ensures t == RoleType ==> r == Converted(ResolveRole(Str(token)))
    ensures t == UserType ==> r == Converted(ResolveUser(Str(token)))
    ensures t.OtherType? ==>
      (r.Converted? <==> convert(t.id, token).Returned?)
      && (r.Converted? ==> r.value == convert(t.id, token).value)
      && (r.Rejected? <==> convert(t.id, token).Raised? && convert(t.id, token).error.ValueError?)
    ensures r.Escaped? ==> t.OtherType? && convert(t.id, token) == Raised(r.error) && !r.error.ValueError?
  {
    match t
    case StrType => Converted(Str(token))
    case IntType =>
      (match ParseInt(token)
       case Some(i) => Converted(Int(i))
       case None => Rejected)
    case RoleType => Converted(ResolveRole(Str(token)))
    case UserType => Converted(ResolveUser(Str(token)))
    case OtherType(id) =>
      (match convert(id, token)
       case Returned(v) => Converted(v)
       case Raised(ValueError(_)) => Rejected
       case Raised(e) => Escaped(e))
  }

  /** Index of the first token whose coercion does not produce a value, or `|tokens|`. */
  function FirstUncast(types: seq<TypeTag>, tokens: seq<string>, convert: Converter): (k: nat)
    ensures k <= |tokens|
    ensures forall i :: 0 <= i < k ==> CastToken(TypeAt(types, i), tokens[i], convert).Converted?
    ensures k < |tokens| ==> !CastToken(TypeAt(types, k), tokens[k], convert).Converted?
    decreases |tokens|
  {
    if tokens == [] then 0
    else
      var n := |tokens| - 1;
      var k := FirstUncast(types, tokens[..n], convert);
      if k < n then k
      else if CastToken(TypeAt(types, n), tokens[n], convert).Converted? then |tokens|
      else n
  }

  /** The coercion loop's result: every value, or the first token that failed. */
  datatype Coercion = Coerced(values: seq<Value>) | CastFailed(token: string) | CastRaised(error: Error)

  /** The coercion loop of `execute_command` over `tokens`. The loop stops at the first token
      that does not convert: a `ValueError` there is reported with that token, any other exception
      escapes; tokens after it are never converted. */
  function CastAll(types: seq<TypeTag>, tokens: seq<string>, convert: Converter): (r: Coercion)
    ensures var k := FirstUncast(types, tokens, convert);
      (r.Coerced? <==> k == |tokens|)
      && (r.CastFailed? ==> CastToken(TypeAt(types, k), tokens[k], convert) == Rejected && r.token == tokens[k])
      && (r.CastRaised? ==> CastToken(TypeAt(types, k), tokens[k], convert) == Escaped(r.error))
    ensures r.Coerced? ==> (|r.values| == |tokens|
      && forall i :: 0 <= i < |tokens| ==> CastToken(TypeAt(types, i), tokens[i], convert) == Converted(r.values[i]))
    decreases |tokens|
  {
    if tokens == [] then Coerced([])
    else
      var n := |tokens| - 1;
      match CastAll(types, tokens[..n], convert)
      case Coerced(vs) =>
        (match CastToken(TypeAt(types, n), tokens[n], convert)
         case Converted(v) =>
           ConvertedSnoc(types, tokens, convert, vs, v);
           Coerced(vs + [v])
         case Rejected => CastFailed(tokens[n])
         case Escaped(e) => CastRaised(e))
      case CastFailed(t) =>
        var k := FirstUncast(types, tokens[..n], convert);
        assert FirstUncast(types, tokens, convert) == k && tokens[..n][k] == tokens[k];
        CastFailed(t)
      case CastRaised(e) =>
        var k := FirstUncast(types, tokens[..n], convert);
        assert FirstUncast(types, tokens, convert) == k && tokens[..n][k] == tokens[k];
        CastRaised(e)
  }

  /** The values of all tokens but the last, followed by the last one's value, are the values of
      all tokens. */
  lemma ConvertedSnoc(types: seq<TypeTag>, tokens: seq<string>, convert: Converter, vs: seq<Value>, v: Value)
    requires tokens != [] && |vs| == |tokens| - 1
    requires forall i :: 0 <= i < |vs| ==>
      CastToken(TypeAt(types, i), tokens[..|vs|][i], convert) == Converted(vs[i])
    requires CastToken(TypeAt(types, |vs|), tokens[|vs|], convert) == Converted(v)
    ensures forall i :: 0 <= i < |tokens| ==> CastToken(TypeAt(types, i), tokens[i], convert) == Converted((vs + [v])[i])
  {
    forall i | 0 <= i < |tokens|
      ensures CastToken(TypeAt(types, i), tokens[i], convert) == Converted((vs + [v])[i])
    {
      if i < |vs| {
        assert tokens[..|vs|][i] == tokens[i];
      }
    }
  }

  /** Each token as a `str` value. */
  function Strs(tokens: seq<string>): (vs: seq<Value>)
    ensures |vs| == |tokens| && forall i :: 0 <= i < |tokens| ==> vs[i] == Str(tokens[i])
  {
    if tokens == [] then [] else [Str(tokens[0])] + Strs(tokens[1..])
  }

  /** With no declared types every token is passed on as the string it is. */
  lemma NoTypesPassesStrings(tokens: seq<string>, convert: Converter)
    ensures CastAll([], tokens, convert) == Coerced(Strs(tokens))
  {
    var r := CastAll([], tokens, convert);
    assert FirstUncast([], tokens, convert) == |tokens|;
    assert r.values == Strs(tokens);
  }

  /** Tokens beyond the declared types are passed on as the strings they are. */
  lemma UndeclaredTokensStayStrings(types: seq<TypeTag>, tokens: seq<string>, convert: Converter)
    requires CastAll(types, tokens, convert).Coerced?
    ensures forall i :: |types| <= i < |tokens| ==> CastAll(types, tokens, convert).values[i] == Str(tokens[i])
  {
    forall i | |types| <= i < |tokens|
      ensures CastAll(types, tokens, convert).values[i] == Str(tokens[i])
    {
      assert TypeAt(types, i) == StrType;
    }
  }

  /** Once a token fails, the tokens after it make no difference: they are never converted. */
  lemma {:induction false} CastStopsAtFirstFailure(types: seq<TypeTag>, tokens: seq<string>, more: seq<string>,
                                                   convert: Converter)
    requires !CastAll(types, tokens, convert).Coerced?
    ensures CastAll(types, tokens + more, convert) == CastAll(types, tokens, convert)
    decreases |more|
  {
    if more == [] {
      assert tokens + more == tokens;
    } else {
      var init := more[..|more| - 1];
      CastStopsAtFirstFailure(types, tokens, init, convert);
      assert (tokens + more)[..|tokens + more| - 1] == tokens + init;
    }
  }

  /** `"!add 2 3"` against two integer parameters: two tokens that `int()` accepts give their
      integers, and a second token that `int()` rejects is the token reported. */
  lemma AddExample(x: string, y: string, bad: string, convert: Converter)
    requires ParseInt(x).Some? && ParseInt(y).Some? && ParseInt(bad).None?
    ensures CastAll([IntType, IntType], [x, y], convert) == Coerced([Int(ParseInt(x).value), Int(ParseInt(y).value)])
    ensures CastAll([IntType, IntType], [x, bad], convert) == CastFailed(bad)
  {
    IntPairCoerced(x, y, convert);
    IntPairStops(x, bad, convert);
  }

  /** Two tokens `int()` accepts, against two integer parameters. */
  lemma IntPairCoerced(x: string, y: string, convert: Converter)
    requires ParseInt(x).Some? && ParseInt(y).Some?
    ensures CastAll([IntType, IntType], [x, y], convert) == Coerced([Int(ParseInt(x).value), Int(ParseInt(y).value)])
  {
    IntCast(x, convert);
    IntCast(y, convert);
    PairCoerced([IntType, IntType], x, y, Int(ParseInt(x).value), Int(ParseInt(y).value), convert);
  }

  /** A token `int()` accepts, then one it rejects, against two integer parameters. */
  lemma IntPairStops(x: string, bad: string, convert: Converter)
    requires ParseInt(x).Some? && ParseInt(bad).None?
    ensures CastAll([IntType, IntType], [x, bad], convert) == CastFailed(bad)
  {
    IntCast(x, convert);
    IntCast(bad, convert);
    PairStops([IntType, IntType], x, bad, convert);
  }

  /** Against an integer parameter, a token converts exactly when `int()` accepts it. */
  lemma IntCast(token: string, convert: Converter)
    ensures CastToken(TypeAt([IntType, IntType], 0), token, convert).Converted? <==> ParseInt(token).Some?
    ensures ParseInt(token).Some? ==> CastToken(TypeAt([IntType, IntType], 0), token, convert) == Converted(Int(ParseInt(token).value))
    ensures ParseInt(token).Some? ==> CastToken(TypeAt([IntType, IntType], 1), token, convert) == Converted(Int(ParseInt(token).value))
    ensures CastToken(TypeAt([IntType, IntType], 1), token, convert).Rejected? <==> ParseInt(token).None?
  {
    assert TypeAt([IntType, IntType], 0) == IntType && TypeAt([IntType, IntType], 1) == IntType;
  }

  /** Two tokens that both convert. */
  lemma PairCoerced(types: seq<TypeTag>, x: string, y: string, vx: Value, vy: Value, convert: Converter)
    requires CastToken(TypeAt(types, 0), x, convert) == Converted(vx)
    requires CastToken(TypeAt(types, 1), y, convert) == Converted(vy)
    ensures CastAll(types, [x, y], convert) == Coerced([vx, vy])
  {
    var tokens := [x, y];
    assert tokens[..0] == [] && tokens[..2] == tokens;
    CastAllStep(types, tokens, convert, 0);
    CastAllStep(types, tokens, convert, 1);
    PairFromEmpty(vx, vy);
  }

  lemma PairFromEmpty<T>(x: T, y: T)
    ensures [] + [x] + [y] == [x, y]
  {
  }

  /** Two tokens of which the second is rejected. */
  lemma PairStops(types: seq<TypeTag>, x: string, bad: string, convert: Converter)
    requires CastToken(TypeAt(types, 0), x, convert).Converted?
    requires CastToken(TypeAt(types, 1), bad, convert) == Rejected
    ensures CastAll(types, [x, bad], convert) == CastFailed(bad)
  {
    var tokens := [x, bad];
    assert tokens[..0] == [];
    CastAllStep(types, tokens, convert, 0);
    CastAllStep(types, tokens, convert, 1);
  }

  /** A command `execute_command` runs for `name`: its name or one of its aliases is `name`. */
  predicate Selects(c: Command, name: Option<string>)
  {
    name.Some? && (c.name == name.value || name.value in c.aliases)
  }

  /** Index of the first command that `name` selects, or `|commands|`. */
  function FindCommand(commands: seq<Command>, name: Option<string>): (k: nat)
    ensures k <= |commands|
    ensures forall j :: 0 <= j < k ==> !Selects(commands[j], name)
    ensures k < |commands| ==> Selects(commands[k], name)
  {
    if commands == [] || Selects(commands[0], name) then 0
    else 1 + FindCommand(commands[1..], name)
  }

  /** The reporters of every command's handler. */
  ghost function HandlerReporters(commands: seq<Command>): set<object>
  {
    set c, o | c in commands && o in Reporters(c.handler) :: o
  }

  /** Triggering `ExceptionDuringCommand` for `e`, after the steps `before`. */
  function Report(em: EventManager, m: Message, cmd: Command, before: seq<Step>, e: Error, behave: Behaviour): (r: Effect)
    reads em
    ensures |before| <= |r.trace| && r.trace[..|before|] == before
    ensures "ExceptionDuringCommand" in em.events ==>
      |before| < |r.trace| && r.trace[|before|] == Fired("ExceptionDuringCommand", [MessageValue(m), CommandValue(cmd), ErrorValue(e)])
    ensures r.outcome.Returned? ==> r.outcome == Returned(NoneValue)
  {
    var r := Trigger(em.events, Named("ExceptionDuringCommand"), [MessageValue(m), CommandValue(cmd), ErrorValue(e)], behave);
    Effect(before + r.trace, r.outcome)
  }

  /** The end of `execute_command` once the handler has run with effect `called`: fire
      `CommandReceived`; an exception from the handler or from a subscriber is reported. */
  function Finish(cmd: Command, em: EventManager, m: Message, called: Effect, behave: Behaviour): (r: Effect)
    reads em
    ensures |called.trace| <= |r.trace| && r.trace[..|called.trace|] == called.trace
    ensures r.outcome.Returned? ==> r.outcome == Returned(NoneValue)
  {
    if called.outcome.Raised? then Report(em, m, cmd, called.trace, called.outcome.error, behave)
    else
      var received := Trigger(em.events, Named("CommandReceived"), [MessageValue(m), CommandValue(cmd)], behave);
      if received.outcome.Raised? then Report(em, m, cmd, called.trace + received.trace, received.outcome.error, behave)
      else Effect(called.trace + received.trace, Returned(NoneValue))
  }

  /** `execute_command` once it has found `cmd`: bundle, coerce, then complete or report. */
  function RunCommand(cmd: Command, em: EventManager, m: Message, args: seq<string>,
                      behave: Behaviour, convert: Converter): (r: Effect)
    reads em, Reporters(cmd.handler)
    ensures CastAll(cmd.paramTypes, Bundle(args, |cmd.paramTypes|), convert).CastRaised? ==>
      r.trace == [] && r.outcome.Raised?
    ensures r.outcome.Returned? ==> r.outcome == Returned(NoneValue)
  {
    match CastAll(cmd.paramTypes, Bundle(args, |cmd.paramTypes|), convert)
    case CastRaised(e) => Effect([], Raised(e))
    case CastFailed(t) =>
      Trigger(em.events, Named("ArgumentCastingError"), [MessageValue(m), CommandValue(cmd), Str(t)], behave)
    case Coerced(vs) => Finish(cmd, em, m, Invoke(cmd.handler, m, vs, behave), behave)
  }

  /** `execute_command(commands, event_manager, message, command_name, args)`: the first command
      that `name` selects is run; when none is, nothing happens. */
  function Execute(commands: seq<Command>, em: EventManager, m: Message, name: Option<string>,
                   args: seq<string>, behave: Behaviour, convert: Converter): (r: Effect)
    reads em, HandlerReporters(commands)
    ensures (forall i :: 0 <= i < |commands| ==> !Selects(commands[i], name)) ==> r == Effect([], Returned(NoneValue))
  {
    var k := FindCommand(commands, name);
    if k < |commands| then RunCommand(commands[k], em, m, args, behave, convert)
    else Effect([], Returned(NoneValue))
  }

  /** A token that does not convert is reported once, with that token, and the handler is never
      reached: `ArgumentCastingError` is the only event fired and every other step is a call to
      one of its subscribers. */
  lemma CastFailureReportsToken(cmd: Command, em: EventManager, m: Message, args: seq<string>,
                                behave: Behaviour, convert: Converter)
    requires em.Valid()
    requires CastAll(cmd.paramTypes, Bundle(args, |cmd.paramTypes|), convert).CastFailed?
    ensures var t := CastAll(cmd.paramTypes, Bundle(args, |cmd.paramTypes|), convert).token;
      var r := RunCommand(cmd, em, m, args, behave, convert);
      FiredEvents(r.trace) == ["ArgumentCastingError"]
      && r.trace[0] == Fired("ArgumentCastingError", [MessageValue(m), CommandValue(cmd), Str(t)])
      && forall i :: 1 <= i < |r.trace| ==>
           r.trace[i].Invoked? && r.trace[i].call.fn in em.events["ArgumentCastingError"]
  {
    var t := CastAll(cmd.paramTypes, Bundle(args, |cmd.paramTypes|), convert).token;
    var payload := [MessageValue(m), CommandValue(cmd), Str(t)];
    assert RunCommand(cmd, em, m, args, behave, convert)
      == Trigger(em.events, Named("ArgumentCastingError"), payload, behave);
    assert Known[2] == "ArgumentCastingError";
    TriggerFiresOnce(em.events, Named("ArgumentCastingError"), payload, behave);
  }

  /** A handler that raises is followed by exactly one more event, `ExceptionDuringCommand`
      carrying its exception; `CommandReceived` is not fired. */
  lemma HandlerErrorReported(cmd: Command, em: EventManager, m: Message, called: Effect, behave: Behaviour)
    requires em.Valid()
    requires called.outcome.Raised?
    ensures var r := Finish(cmd, em, m, called, behave);
      var n := |called.trace|;
      n < |r.trace| && r.trace[..n] == called.trace
      && r.trace[n] == Fired("ExceptionDuringCommand", [MessageValue(m), CommandValue(cmd), ErrorValue(called.outcome.error)])
      && FiredEvents(r.trace) == FiredEvents(called.trace) + ["ExceptionDuringCommand"]
  {
    ReportShape(em, m, cmd, called.trace, called.outcome.error, behave);
  }

  /** `Report` keeps the steps before it and adds exactly one `ExceptionDuringCommand` event,
      right after them. */
  lemma ReportShape(em: EventManager, m: Message, cmd: Command, before: seq<Step>, e: Error, behave: Behaviour)
    requires em.Valid()
    ensures var r := Report(em, m, cmd, before, e, behave);
      var n := |before|;
      n < |r.trace| && r.trace[..n] == before
      && r.trace[n] == Fired("ExceptionDuringCommand", [MessageValue(m), CommandValue(cmd), ErrorValue(e)])
      && FiredEvents(r.trace) == FiredEvents(before) + ["ExceptionDuringCommand"]
  {
    var payload := [MessageValue(m), CommandValue(cmd), ErrorValue(e)];
    var reported := Trigger(em.events, Named("ExceptionDuringCommand"), payload, behave);
    assert Report(em, m, cmd, before, e, behave).trace == before + reported.trace;
    assert Known[1] == "ExceptionDuringCommand";
    TriggerFiresOnce(em.events, Named("ExceptionDuringCommand"), payload, behave);
    FiredEventsAppend(before, reported.trace);
    assert (before + reported.trace)[..|before|] == before;
    assert (before + reported.trace)[|before|] == reported.trace[0];
  }

  /** A handler that returns is followed by `CommandReceived`, and when its subscribers all
      return, that is the only event added and the command completes with `None`. */
  lemma HandlerSuccessReceived(cmd: Command, em: EventManager, m: Message, called: Effect, behave: Behaviour)
    requires em.Valid()
    requires called.outcome.Returned?
    requires Trigger(em.events, Named("CommandReceived"), [MessageValue(m), CommandValue(cmd)], behave).outcome.Returned?
    ensures var r := Finish(cmd, em, m, called, behave);
      var n := |called.trace|;
      n < |r.trace| && r.trace[..n] == called.trace
      && r.trace[n] == Fired("CommandReceived", [MessageValue(m), CommandValue(cmd)])
      && r.outcome == Returned(NoneValue)
      && FiredEvents(r.trace) == FiredEvents(called.trace) + ["CommandReceived"]
  {
    var received := Trigger(em.events, Named("CommandReceived"), [MessageValue(m), CommandValue(cmd)], behave);
    assert Finish(cmd, em, m, called, behave).trace == called.trace + received.trace;
    assert Known[3] == "CommandReceived";
    TriggerFiresOnce(em.events, Named("CommandReceived"), [MessageValue(m), CommandValue(cmd)], behave);
    FiredEventsAppend(called.trace, received.trace);
    assert (called.trace + received.trace)[..|called.trace|] == called.trace;
    assert (called.trace + received.trace)[|called.trace|] == received.trace[0];
  }

  /** When a `CommandReceived` subscriber raises, `ExceptionDuringCommand` follows with that
      exception, right after the `CommandReceived` steps, and nothing else is fired. */
  lemma ReceivedErrorReported(cmd: Command, em: EventManager, m: Message, called: Effect, behave: Behaviour)
    requires em.Valid()
    requires called.outcome.Returned?
    requires Trigger(em.events, Named("CommandReceived"), [MessageValue(m), CommandValue(cmd)], behave).outcome.Raised?
    ensures var received := Trigger(em.events, Named("CommandReceived"), [MessageValue(m), CommandValue(cmd)], behave);
      var r := Finish(cmd, em, m, called, behave);
      var n := |called.trace| + |received.trace|;
      n < |r.trace| && r.trace[..n] == called.trace + received.trace
      && r.trace[n] == Fired("ExceptionDuringCommand", [MessageValue(m), CommandValue(cmd), ErrorValue(received.outcome.error)])
      && FiredEvents(r.trace) == FiredEvents(called.trace) + ["CommandReceived", "ExceptionDuringCommand"]
  {
    var received := Trigger(em.events, Named("CommandReceived"), [MessageValue(m), CommandValue(cmd)], behave);
    var before := called.trace + received.trace;
    ReportShape(em, m, cmd, before, received.outcome.error, behave);
    assert FiredEvents(received.trace) == ["CommandReceived"] by {
      assert Known[3] == "CommandReceived";
      TriggerFiresOnce(em.events, Named("CommandReceived"), [MessageValue(m), CommandValue(cmd)], behave);
    }
    FiredEventsAppend(called.trace, received.trace);
    var r := Finish(cmd, em, m, called, behave);
    assert r == Report(em, m, cmd, before, received.outcome.error, behave);
    AppendTwo(FiredEvents(called.trace), "CommandReceived", "ExceptionDuringCommand");
  }

  lemma AppendTwo<T>(a: seq<T>, x: T, y: T)
    ensures a + [x] + [y] == a + [x, y]
  {
  }

  /** Every step of `trace` is an event or a call to one of `subscribers`. */
  predicate EventSteps(trace: seq<Step>, subscribers: seq<Fn>)
  {
    forall i :: 0 <= i < |trace| ==> trace[i].Fired? || trace[i].call.fn in subscribers
  }

  lemma EventStepsAppend(a: seq<Step>, b: seq<Step>, subscribers: seq<Fn>)
    requires EventSteps(a, subscribers) && EventSteps(b, subscribers)
    ensures EventSteps(a + b, subscribers)
  {
    forall i | 0 <= i < |a + b|
      ensures (a + b)[i].Fired? || (a + b)[i].call.fn in subscribers
    {
      if i >= |a| {
        assert (a + b)[i] == b[i - |a|];
      }
    }
  }

  /** A trigger of a known event makes only steps of that event's subscribers. */
  lemma TriggerEventSteps(events: Table, key: string, args: seq<Value>, behave: Behaviour, subscribers: seq<Fn>)
    requires key in events && forall f :: f in events[key] ==> f in subscribers
    ensures EventSteps(Trigger(events, Named(key), args, behave).trace, subscribers)
  {
    TriggerFiresOnce(events, Named(key), args, behave);
  }

  /** After the handler's own steps, `Finish` makes only steps of the `CommandReceived` and
      `ExceptionDuringCommand` events. */
  lemma FinishTail(cmd: Command, em: EventManager, m: Message, called: Effect, behave: Behaviour)
    requires em.Valid()
    ensures var r := Finish(cmd, em, m, called, behave);
      |called.trace| <= |r.trace| && r.trace[..|called.trace|] == called.trace
      && EventSteps(r.trace[|called.trace|..], em.events["CommandReceived"] + em.events["ExceptionDuringCommand"])
  {
    var subs := em.events["CommandReceived"] + em.events["ExceptionDuringCommand"];
    assert Known[3] == "CommandReceived" && Known[1] == "ExceptionDuringCommand";
    var tail: seq<Step>;
    if called.outcome.Raised? {
      var payload := [MessageValue(m), CommandValue(cmd), ErrorValue(called.outcome.error)];
      tail := Trigger(em.events, Named("ExceptionDuringCommand"), payload, behave).trace;
      TriggerEventSteps(em.events, "ExceptionDuringCommand", payload, behave, subs);
    } else {
      var received := Trigger(em.events, Named("CommandReceived"), [MessageValue(m), CommandValue(cmd)], behave);
      TriggerEventSteps(em.events, "CommandReceived", [MessageValue(m), CommandValue(cmd)], behave, subs);
      var reported: seq<Step> := [];
      if received.outcome.Raised? {
        var payload := [MessageValue(m), CommandValue(cmd), ErrorValue(received.outcome.error)];
        reported := Trigger(em.events, Named("ExceptionDuringCommand"), payload, behave).trace;
        TriggerEventSteps(em.events, "ExceptionDuringCommand", payload, behave, subs);
      }
      EventStepsAppend(received.trace, reported, subs);
      tail := received.trace + reported;
      assert called.trace + received.trace + reported == called.trace + tail;
    }
    var r := called.trace + tail;
    assert Finish(cmd, em, m, called, behave).trace == r;
    assert r[..|called.trace|] == called.trace && r[|called.trace|..] == tail;
  }

  /** A plain handler is the first thing called, with the message and the values in order;
      every later step is an event or a call to a `CommandReceived` or `ExceptionDuringCommand`
      subscriber, so the handler itself runs once. */
  lemma PlainHandlerCalledFirst(cmd: Command, em: EventManager, m: Message, vs: seq<Value>, behave: Behaviour)
    requires em.Valid()
    requires cmd.handler.Plain?
    ensures var r := Finish(cmd, em, m, Invoke(cmd.handler, m, vs, behave), behave);
      |r.trace| >= 1 && r.trace[0] == Invoked(Call(cmd.handler.fn, [MessageValue(m)] + vs))
      && EventSteps(r.trace[1..], em.events["CommandReceived"] + em.events["ExceptionDuringCommand"])
  {
    var called := Invoke(cmd.handler, m, vs, behave);
    assert called.trace == [Invoked(Call(cmd.handler.fn, [MessageValue(m)] + vs))];
    FinishTail(cmd, em, m, called, behave);
    var r := Finish(cmd, em, m, called, behave);
    assert r.trace[..1][0] == r.trace[0];
  }

  /** A command with no declared parameters still passes the words after its name to the
      handler, each as the string it is. */
  lemma ZeroParameterCommandGetsWords(cmd: Command, em: EventManager, m: Message, words: seq<string>,
                                      behave: Behaviour, convert: Converter)
    requires cmd.paramTypes == [] && cmd.handler.Plain?
    ensures var r := RunCommand(cmd, em, m, words, behave, convert);
      |r.trace| >= 1
      && r.trace[0] == Invoked(Call(cmd.handler.fn, [MessageValue(m)] + Strs(words)))
  {
    var called := Invoke(cmd.handler, m, Strs(words), behave);
    ZeroParameterRunIsFinish(cmd, em, m, words, behave, convert);
    assert called.trace == [Invoked(Call(cmd.handler.fn, [MessageValue(m)] + Strs(words)))];
    FinishStartsWithCall(cmd, em, m, called, behave);
  }

  lemma ZeroParameterRunIsFinish(cmd: Command, em: EventManager, m: Message, words: seq<string>,
                                 behave: Behaviour, convert: Converter)
    requires cmd.paramTypes == []
    ensures RunCommand(cmd, em, m, words, behave, convert)
      == Finish(cmd, em, m, Invoke(cmd.handler, m, Strs(words), behave), behave)
  {
    BundleShape(words, 0);
    NoTypesPassesStrings(words, convert);
  }

  lemma FinishStartsWithCall(cmd: Command, em: EventManager, m: Message, called: Effect, behave: Behaviour)
    requires |called.trace| >= 1
    ensures |Finish(cmd, em, m, called, behave).trace| >= 1
    ensures Finish(cmd, em, m, called, behave).trace[0] == called.trace[0]
  {
    var r := Finish(cmd, em, m, called, behave);
    assert r.trace[..|called.trace|][0] == r.trace[0];
  }

  /** One more token of a coercion that has converted every earlier one: its value extends the
      values, and otherwise it is the token or the error of the whole coercion. */
  lemma CastAllStep(types: seq<TypeTag>, tokens: seq<string>, convert: Converter, i: nat)
    requires i < |tokens| && CastAll(types, tokens[..i], convert).Coerced?
    ensures var c := CastToken(TypeAt(types, i), tokens[i], convert);
      (c.Converted? ==>
        CastAll(types, tokens[..i + 1], convert) == Coerced(CastAll(types, tokens[..i], convert).values + [c.value]))
      && (c.Rejected? ==> CastAll(types, tokens, convert) == CastFailed(tokens[i]))
      && (c.Escaped? ==> CastAll(types, tokens, convert) == CastRaised(c.error))
  {
    if CastToken(TypeAt(types, i), tokens[i], convert).Converted? {
      CastAllExtends(types, tokens, convert, i);
    } else {
      CastAllStopsAt(types, tokens, convert, i);
    }
  }

  lemma CastAllExtends(types: seq<TypeTag>, tokens: seq<string>, convert: Converter, i: nat)
    requires i < |tokens| && CastAll(types, tokens[..i], convert).Coerced?
    requires CastToken(TypeAt(types, i), tokens[i], convert).Converted?
    ensures CastAll(types, tokens[..i + 1], convert)
      == Coerced(CastAll(types, tokens[..i], convert).values + [CastToken(TypeAt(types, i), tokens[i], convert).value])
  {
    var t := tokens[..i + 1];
    assert t[..i] == tokens[..i] && t[i] == tokens[i];
  }

  lemma CastAllStopsAt(types: seq<TypeTag>, tokens: seq<string>, convert: Converter, i: nat)
    requires i < |tokens| && CastAll(types, tokens[..i], convert).Coerced?
    requires !CastToken(TypeAt(types, i), tokens[i], convert).Converted?
    ensures FirstUncast(types, tokens, convert) == i
  {
    var done := CastAll(types, tokens[..i], convert);
    forall j | 0 <= j < i
      ensures CastToken(TypeAt(types, j), tokens[j], convert).Converted?
    {
      assert tokens[..i][j] == tokens[j];
      assert CastToken(TypeAt(types, j), tokens[..i][j], convert) == Converted(done.values[j]);
    }
    var k := FirstUncast(types, tokens, convert);
    assert !(k < i) && !(k > i);
  }

  /** The coercion loop of `execute_command`: convert each token by its declared type, stopping
      at the first that does not convert. */
  method Coerce(types: seq<TypeTag>, tokens: seq<string>, convert: Converter) returns (r: Coercion)
    ensures r == CastAll(types, tokens, convert)
  {
    var parsed: seq<Value> := [];
    var i := 0;
    while i < |tokens|
      invariant 0 <= i <= |tokens|
      invariant CastAll(types, tokens[..i], convert) == Coerced(parsed)
    {
      var cast := CastToken(if i < |types| then types[i] else StrType, tokens[i], convert);
      CastAllStep(types, tokens, convert, i);
      if cast.Rejected? {
        return CastFailed(tokens[i]);
      } else if cast.Escaped? {
        return CastRaised(cast.error);
      }
      parsed := parsed + [cast.value];
      i := i + 1;
    }
    assert tokens[..|tokens|] == tokens;
    r := Coerced(parsed);
  }

  /** The body of `execute_command` for the command it found. */
  method RunFound(cmd: Command, em: EventManager, m: Message, args: seq<string>,
                  behave: Behaviour, convert: Converter) returns (trace: seq<Step>, out: Outcome)
    ensures Effect(trace, out) == RunCommand(cmd, em, m, args, behave, convert)
  {
    var types := cmd.paramTypes;
    var tokens := args;
    if |tokens| > |types| {
      var cut := if |types| >= 1 then |types| - 1 else |tokens| - 1;
      tokens := tokens[..cut] + [Join(tokens[cut..])];
    }
    assert tokens == Bundle(args, |types|);
    var coerced := Coerce(types, tokens, convert);
    if coerced.CastRaised? {
      trace, out := [], Raised(coerced.error);
    } else if coerced.CastFailed? {
      trace, out := em.TriggerEvent(Named("ArgumentCastingError"), [MessageValue(m), CommandValue(cmd), Str(coerced.token)], behave);
    } else {
      var called, calledOut := Run(cmd.handler, m, coerced.values, behave);
      ReportersAllocated(cmd.handler);
      trace, out := FinishRun(cmd, em, m, called, calledOut, behave);
    }
  }

  /** What `execute_command` does once the handler has run, with steps `called` and outcome
      `calledOut`: fire `CommandReceived`, or report an exception from the handler or from a
      `CommandReceived` subscriber through `ExceptionDuringCommand`. */
  method FinishRun(cmd: Command, em: EventManager, m: Message, called: seq<Step>, calledOut: Outcome,
                   behave: Behaviour) returns (trace: seq<Step>, out: Outcome)
    ensures Effect(trace, out) == Finish(cmd, em, m, Effect(called, calledOut), behave)
  {
    if calledOut.Raised? {
      var reported, reportedOut := em.TriggerEvent(Named("ExceptionDuringCommand"),
        [MessageValue(m), CommandValue(cmd), ErrorValue(calledOut.error)], behave);
      trace, out := called + reported, reportedOut;
    } else {
      var received, receivedOut := em.TriggerEvent(Named("CommandReceived"), [MessageValue(m), CommandValue(cmd)], behave);
      if receivedOut.Raised? {
        var reported, reportedOut := em.TriggerEvent(Named("ExceptionDuringCommand"),
          [MessageValue(m), CommandValue(cmd), ErrorValue(receivedOut.error)], behave);
        trace, out := called + received + reported, reportedOut;
      } else {
        trace, out := called + received, Returned(NoneValue);
      }
    }
  }

  /** `execute_command(commands, event_manager, message, command_name, args)`. */
  method ExecuteCommand(commands: seq<Command>, em: EventManager, m: Message, name: Option<string>,
                        args: seq<string>, behave: Behaviour, convert: Converter)
    returns (trace: seq<Step>, out: Outcome)
    ensures Effect(trace, out) == Execute(commands, em, m, name, args, behave, convert)
  {
    var k := 0;
    while k < |commands|
      invariant 0 <= k <= |commands|
      invariant forall j :: 0 <= j < k ==> !Selects(commands[j], name)
    {
      var cmd := commands[k];
      if name.Some? && (cmd.name == name.value || name.value in cmd.aliases) {
        assert FindCommand(commands, name) == k;
        trace, out := RunFound(cmd, em, m, args, behave, convert);
        return;
      }
      k := k + 1;
    }
    trace, out := [], Returned(NoneValue);
  }
}
